=== FILE: README.md ===
# Watts Vision decoder

A Dafny model of `watts_vision_decode` in `src/devices/watts_vision.c`.
This is the rtl_433 decoder for Watts Vision thermostats.

The decoder receives one demodulated capture, a bit buffer of rows, and
returns one of four outcomes:

- an early abort;
- a length abort;
- an integrity (MIC) failure;
- one decoded record.

Its steps are as follows:

1. It requires exactly one row.
2. It searches that row, at any bit offset, for the 48-bit pattern
   `aa aa d3 91 d3 91`: the last two preamble bytes, then the 32-bit sync
   word `d3 91 d3 91`.
3. It rejects rows shorter than 112 bits.
4. It reads the length byte `len` after the pattern and rejects lengths
   above 50.
5. It copies the length byte and the next `len + 2` bytes into a frame
   buffer.
6. It checks a CRC-16 over `frame[1 .. len - 1]` against the big-endian
   pair `frame[len + 1], frame[len + 2]`. The CRC uses polynomial 0x8005
   and initial value 0xFFFF, most significant bit first.
7. It emits `frame[1 .. len]` as lower-case hex, with model `WattsVision`
   and mic `CRC`.

Modules:

- `Bits`: rows as `seq<bool>`, bytes as `bv8`. Reading bytes at any bit
  offset, most significant bit first, which is the meaning of the bit-buffer
  extraction. Serialisation back to bits, and single-bit flips.
- `BitSearch`: the bit-granular search. It returns the first offset where
  the whole pattern fits and matches, or the row length when there is none.
- `Crc`: the byte-at-a-time CRC-16 the decoder calls. It also holds an
  independent bit-serial reference (`CrcBits`). The two are proved equal,
  and the reference is used to prove that single-bit errors are detected.
- `HexFormat`: the `%02x` rendering, together with its inverse `Unhex`.
- `WattsVision`: the decoder (`Decode`, `DecodeRow`, `DecodeAt`,
  `CheckFrame`). It also has two imperative methods over fixed arrays:
  - `ExtractFrame` fills the frame buffer;
  - `FormatRaw` fills the hex string buffer.
  This decoder repairs the four hazards listed under Findings. Everywhere
  else it behaves like the original.
- `WattsVisionProperties`: the properties of the decoder, stated over the
  bit layout of a row.
- `AsWritten`: the original decoder as written. It reports which hazard a
  capture reaches. This module holds the counterexamples and the agreement
  of the two decoders.

Where descriptions of this decoder and its code disagree, this model
follows the code:

- The sync search comes before the 112-bit minimum, not after it. A short
  row without the pattern is therefore an early abort, and a short row
  with the pattern is a length abort.
- The inner CRC covers `frame[1 .. len - 1]`. It does not cover the length
  byte, and it does not cover `frame[len]`.
- The hex string holds `frame[1 .. len]`, without the length byte. A frame
  with length byte 5 is therefore accepted when the CRC of its first four
  payload bytes is stored after the fifth byte, which is not checked. The
  record then shows those five bytes (`FiveByteFrame`).
- There are exactly three failure outcomes: early abort, length abort and
  MIC failure.
- A row too short to hold the frame is not checked for in the original;
  see Findings.
- The 112-bit minimum applies to the whole row, trailer included. A
  correctly framed transmission shorter than 112 bits is a length abort.
  An example is a 4-byte frame with its inner CRC and no outer trailer,
  which is 104 bits long. So the round trip with an arbitrary outer
  trailer does not hold for short payloads: the trailer must bring the row
  to 112 bits.

## Model

| member | source | states |
|---|---|---|
| WattsVision.Decode | src/devices/watts_vision.c:50-60 | A capture that does not have exactly one row is an early abort. A one-row capture is an early abort exactly when the sync pattern occurs nowhere in the row. Every emitted record is well-formed: model `WattsVision`, mic `CRC`, and 2 to 100 lower-case hex digits. |
| WattsVision.DecodeRow | src/devices/watts_vision.c:56-65 | Early abort if and only if the row holds no sync pattern. A row that holds the pattern but is shorter than 112 bits is a length abort, because the pattern is looked for before the length gate. |
| WattsVision.DecodeAt | src/devices/watts_vision.c:67-98 | Once the sync pattern is found, the outcome is never an early abort, and any record emitted is well-formed. |
| WattsVisionProperties.LengthAbortIffMisfit | src/devices/watts_vision.c:67-94 | After the sync pattern, the outcome is a length abort exactly when the length byte does not lie in the row, or lies outside 1 to 50, or the frame it announces does not end inside the row. Otherwise the frame buffer filled from the row is handed to the integrity check. |
| WattsVision.CheckFrame | src/devices/watts_vision.c:88-98 | Once a frame has been read, the only outcomes are a record or a MIC failure, and any record is well-formed. |
| WattsVision.ExtractFrame | src/devices/watts_vision.c:76-82 | The buffer here has 53 bytes (length byte, 50 bytes, 2 CRC bytes), not the original's 50, and the length is 1 to 50. With that, writing the length byte and `len + 2` bytes into the zeroed buffer stays in bounds. The buffer then holds the length byte at 0, the bytes read from the row at `1 .. len + 2`, and zeros after them. |
| WattsVision.FillFrame | src/devices/watts_vision.c:76-82 | Filling a zeroed buffer of any capacity with the length byte and `len + 2` bytes from index 1 is in bounds when `len + 3` is at most the capacity. The contents are as for `ExtractFrame`. |
| WattsVision.FormatRaw | src/devices/watts_vision.c:96-98 | Filling the 101-character buffer two digits and a NUL at a time never writes out of bounds for `len <= 50`. The string produced is the lower-case hex of `frame[1 .. len]`. |
| WattsVisionProperties.UsesFirstSync | src/devices/watts_vision.c:56-60 | The decoder proceeds from the first occurrence of the sync pattern, whatever later occurrences the row holds. |
| WattsVisionProperties.OversizedLengthAborts | src/devices/watts_vision.c:67-74 | A length byte above 50 after the first sync pattern is a length abort, whatever bits follow it. |
| WattsVisionProperties.CheckFrameComparesWords | src/devices/watts_vision.c:88-94 | The CRC-16 register, read as an unsigned number, is below 2^16, as a `uint16_t` is. A frame buffer is accepted exactly when that number equals the integer `frame[len + 1] * 256 + frame[len + 2]`, which is what the shift-and-or on line 90 computes. Otherwise it is a MIC failure. |
| WattsVisionProperties.RegisterMatchesWord | src/devices/watts_vision.c:90 | A 16-bit register equals the bits of the pair `hi`, `lo` exactly when its value equals `hi * 256 + lo`. Comparing bits and comparing integers agree. |
| Bits.ValueOfByte | src/devices/watts_vision.c:90 | The eight bits of a byte, read as a binary number with the most significant bit first, give the byte's own value. |
| Bits.ValueAppend | src/devices/watts_vision.c:90 | The value of two bit strings side by side is the high part shifted left by the width of the low part, plus the low part. With an 8-bit low part this is the shift-and-or of line 90. |
| Bits.ValueInjective | src/devices/watts_vision.c:90 | Two bit strings of the same width have the same value exactly when they are the same string. |
| WattsVisionProperties.AcceptedIffInnerCrcMatches | src/devices/watts_vision.c:80-98 | For a row of at least 112 bits holding a complete frame, the row is decoded exactly when the CRC of the `len - 1` bytes after the length byte equals the 16 bits stored after the unchecked byte. Otherwise it is a MIC failure. The record carries the `len` bytes after the length byte. |
| WattsVisionProperties.CheckedOnlyWhenFramed | src/devices/watts_vision.c:50-94 | A capture is decoded or fails its MIC exactly when it has one row, the row holds the pattern, the row is at least 112 bits, and a frame of length 1 to 50 lies wholly inside the row after the first pattern. |
| WattsVisionProperties.TrailerIgnored | src/devices/watts_vision.c:86-94 | Bits after the inner CRC never change the outcome, as long as the row keeps at least 112 bits. This covers the outer CRC, whole or with bits lost off the end. |
| WattsVisionProperties.UncoveredByteNotChecked | src/devices/watts_vision.c:88-98 | Replacing the byte between the covered bytes and the inner CRC never changes acceptance. An accepted frame then shows the replacement in its hex. |
| WattsVisionProperties.SingleBitCorruptionDetected | src/devices/watts_vision.c:88-94 | Flipping any one covered bit or stored CRC bit of an accepted frame makes it a MIC failure. |
| WattsVisionProperties.RoundTrip | src/devices/watts_vision.c:41-108 | The decoder returns the payload and the unchecked byte as hex for every transmission built from: noise without the pattern, the sync pattern, a length byte, 0 to 49 payload bytes, one unchecked byte, the CRC of the payload, and any trailer, as long as the whole transmission has at least 112 bits. |
| WattsVisionProperties.UnalignedSyncFound | src/devices/watts_vision.c:56 | A sync pattern after any number of zero bits, byte-aligned or not, is found and its frame is decoded, as long as the row has at least 112 bits. |
| WattsVisionProperties.FiveByteFrame | src/devices/watts_vision.c:86-108 | A length-5 frame with the CRC of its four payload bytes and any two-byte outer trailer decodes to the hex of the five bytes after the length byte. |
| BitSearch.Search | src/devices/watts_vision.c:56-60 | Returns the first offset at or after the start where the whole pattern fits and matches. For a non-empty pattern, it returns the row length exactly when there is none. |
| BitSearch.SearchFindsFirst | src/devices/watts_vision.c:56-60 | A search from offset 0 returns the first occurrence. |
| Bits.ExtractBytes | src/devices/watts_vision.c:68-82 | The `n` bytes read from the row at bit `pos`, most significant bit first. Its contract states only the count. What they hold is fixed by `Bits.ExtractOfBits` and `Bits.BitsOfExtract`. |
| Bits.ExtractOfBits | src/devices/watts_vision.c:80-82 | Reading bytes from the bit offset where they were serialised, most significant bit first, returns them, whatever surrounds them. |
| Bits.BitsOfExtract | src/devices/watts_vision.c:80-82 | The bytes read carry exactly the bits of the window they were read from, so extraction loses nothing. |
| Crc.Crc16 | src/devices/watts_vision.c:88 | The CRC-16 of the message, as a 16-bit register. Its contract states only the width. What it computes is fixed by `Crc.Crc16IsBitSerial`, its value as a `uint16_t` by `WattsVisionProperties.CheckFrameComparesWords`. |
| Crc.Crc16IsBitSerial | src/devices/watts_vision.c:88 | The byte-at-a-time CRC-16 equals the bit-serial polynomial division of the message bits. |
| Crc.SingleBitErrorDetected | src/devices/watts_vision.c:88-90 | Flipping any one message bit changes the CRC. |
| HexFormat.Hex | src/devices/watts_vision.c:96-98 | The `%02x` rendering of each byte in turn. Its contract states only the length, two characters per byte. Its meaning is fixed by `HexFormat.UnhexHex` and `HexFormat.HexIsLowerHex`. |
| HexFormat.UnhexHex | src/devices/watts_vision.c:96-98 | Reading the hex string back gives the original bytes, so distinct frames never share a `raw` string. |
| HexFormat.HexIsLowerHex | src/devices/watts_vision.c:96-98 | Every character of the rendering is a lower-case hex digit. |
| AsWritten.DecodeAsWritten | src/devices/watts_vision.c:50-94 | The original is an early abort exactly when the capture is not one row or the row has no sync pattern. It reaches a hazard only for one row that holds the pattern and has at least 112 bits. It reads the length byte past the row exactly when the row has at least 112 bits and fewer than 8 bits follow the first pattern. |
| AsWritten.DecodeAtAsWritten | src/devices/watts_vision.c:67-94 | Once the length byte is in the row, the original is a length abort exactly for lengths above 50. It overruns its frame buffer exactly for lengths 48 to 50. It reads the frame past the row exactly for a shorter length whose frame does not end in the row. It wraps the CRC byte count exactly for length 0 with a frame that does end in the row. When it checks a frame, that frame fits the row and has length 1 to 47. |
| AsWritten.ExtractFrameAsWritten | src/devices/watts_vision.c:76-82 | Filling the original 50-byte buffer with the length byte and `len + 2` bytes from index 1 is in bounds only when `len + 3 <= 50`, that is, for lengths up to 47. The lengths 48 to 50 pass the `len > 50` guard but not this bound; `AsWritten.DecodeAtAsWritten` reports exactly those as the overrun. |
| AsWritten.CrcByteCount | src/devices/watts_vision.c:88 | The byte count passed to the CRC routine is `len - 1` for `len >= 1`, and 2^32 - 1 for `len == 0`. |
| AsWritten.RepairedAgreesAt | src/devices/watts_vision.c:67-94 | Once the length byte lies inside the row, the repaired decoder returns the original's outcome wherever the original is defined. It is a length abort where the original reads past the row or miscounts the CRC bytes. Where the original overruns its buffer, it checks the frame exactly when the row holds it. |
| AsWritten.RepairedAgreesWhereDefined | src/devices/watts_vision.c:50-94 | On every capture, the repaired decoder equals the original wherever the original is defined. It is a length abort where the original reads outside the row or miscounts the CRC bytes. |
| AsWritten.FrameOverrunReachable | src/devices/watts_vision.c:71-82 | Every complete frame with a length byte of 48 to 50 passes the guard and is written past the 50-byte frame buffer. |
| AsWritten.ZeroLengthWrapsCrcCount | src/devices/watts_vision.c:88 | A row that starts with the sync pattern, then a zero length byte and at least 7 more bytes, passes every guard and hands the CRC routine a count of 2^32 - 1. The repaired decoder rejects it. |
| AsWritten.ShortRowReadPastEnd | src/devices/watts_vision.c:63-82 | A row of at least 112 bits with a length byte of 1 to 47 that ends inside its frame passes every guard and is read past its end. The repaired decoder rejects it. |
| AsWritten.LengthByteReadPastEnd | src/devices/watts_vision.c:63-68 | A pattern at the end of a 112-bit row passes every guard, and the length byte is read past the row. The repaired decoder rejects it. |

## Left out

- Diagnostic logging (`decoder_logf`, `decoder_log_bitrow`): it never affects the outcome.
- `data_make` and `decoder_output_data`: the record is a plain datatype with the three fields in output order.
- The `r_device` registration and the `output_fields` list: these are static metadata for the dispatcher.
- Demodulation and the production of rows: a row is given as a sequence of bits, and its length is `bits_per_row`.
- `bitbuffer_search`, `bitbuffer_extract_bytes` and `crc16` are not part of this model. Each is written from its meaning as the decoder uses it: first full match or the row length; bytes most significant bit first; CRC-16 with no reflection and no final XOR.
- The numeric values of the return codes are not part of this model. The outcomes are symbolic, and the success value 1 is `Decoded`.
- `sprintf`: only the meaning of `%02x` is modelled, two lower-case digits per byte plus the terminating NUL in `FormatRaw`.
- Bit positions are unbounded naturals, not `unsigned`. A row long enough for a position to overflow is not modelled.
- Undefined behaviour is not given a value: the original's four hazards end in `Undefined(hazard)`.

## Findings

| source | as written | input that shows it | evidently intended | confidence | as-written member | corrected member |
|---|---|---|---|---|---|---|
| src/devices/watts_vision.c:71-82 | The guard admits `len <= 50`, but `uint8_t frame[50]` receives `len + 2` bytes from `frame[1]` (`AsWritten.ExtractFrameAsWritten` needs `len + 3 <= 50`). | The sync pattern at bit 0, length byte `0x30`, then 50 more bytes: the decoder writes `frame[50]`, one past the end. | A buffer of length byte + 50 bytes + 2 CRC bytes (53), so that every admitted length fits. | not executed | AsWritten.FrameOverrunReachable | WattsVision.ExtractFrame |
| src/devices/watts_vision.c:88 | A length byte of 0 passes the guard, and `len - 1` is passed as the CRC byte count. | The sync pattern at bit 0, length byte `0x00`, then 7 bytes (112 bits): the count becomes 2^32 - 1. | Lengths below 1 rejected as a length abort. | not executed | AsWritten.ZeroLengthWrapsCrcCount | WattsVisionProperties.CheckedOnlyWhenFramed |
| src/devices/watts_vision.c:63-82 | Only the 112-bit minimum is checked before reading `len + 2` bytes after the length byte. | The sync pattern at bit 0, length byte `0x2f`, then 7 bytes (112 bits): bits beyond the row are read. | A row too short for its frame rejected as a length abort. | not executed | AsWritten.ShortRowReadPastEnd | WattsVisionProperties.CheckedOnlyWhenFramed |
| src/devices/watts_vision.c:63-68 | The length byte is read without checking that the row extends past the pattern. | 64 zero bits followed by the sync pattern (112 bits): the length byte lies past the row. | Such a row rejected as a length abort. | not executed | AsWritten.LengthByteReadPastEnd | WattsVisionProperties.CheckedOnlyWhenFramed |

The bit-buffer layout (`bitbuffer.h`) is not part of this model, so it is
open whether the reads past a row's bit count also leave the buffer's
storage. In either case they use bits that were never demodulated for this
capture. `AsWritten.RepairedAgreesWhereDefined` proves that the repaired
decoder differs from the original only on these four paths.

=== FILE: as_written.dfy ===
/** The decoder exactly as the original writes it, including the four
hazards on which it writes past its frame buffer, reads past the row's bit
count or hands the CRC routine a wrapped byte count. Where the original is
free of these it agrees with the repaired decoder of `WattsVision`; the
lemmas at the end exhibit a capture for each hazard.
 */
module AsWritten {
  import opened Bits
  import opened BitSearch
  import opened WattsVision
  import opened WattsVisionProperties

  /** The original frame buffer: 50 bytes, so `frame[0 .. 49]`. */
  const SOURCE_FRAME_CAPACITY: nat := 50

  /** The four hazards of the original. */
  datatype Hazard =
    | LengthByteOutsideRow   // the length byte lies past the end of the row
    | FrameOverrun           // the frame bytes are written past `frame[49]`
    | FrameOutsideRow        // the frame bytes lie past the end of the row
    | CrcCountWraps          // the CRC byte count `len - 1` wraps to 2^32 - 1

  datatype SourceOutcome = Defined(outcome: Outcome) | Undefined(hazard: Hazard)

  /** The byte count handed to the CRC routine: `len - 1` computed as an
      `int` and passed as a 32-bit unsigned count. */
  function CrcByteCount(len: nat): (count: nat)
    requires len < 256
    ensures len >= 1 ==> count == len - 1
    ensures len == 0 ==> count == 0xFFFF_FFFF
  {
    (len - 1) % 0x1_0000_0000
  }

  /** The original decoder once the sync pattern has been found at `start`
      and the length byte lies inside the row. The frame buffer is written
      at indices `0 .. len + 2` and read at `len + 1` and `len + 2`; the CRC
      routine reads `CrcByteCount(len)` bytes from index 1. */
  function DecodeAtAsWritten(row: seq<bool>, start: nat): (o: SourceOutcome)
    requires start + BODY_OFFSET <= |row|
    ensures var len := Len(row, start);
      && (o == Defined(AbortLength) <==> len > MAX_LEN)
      && (o == Undefined(FrameOverrun) <==> 48 <= len <= MAX_LEN)
      && (o == Undefined(FrameOutsideRow) <==> len < 48 && FrameEnd(start, len) > |row|)
      && (o == Undefined(CrcCountWraps) <==> len == 0 && FrameEnd(start, len) <= |row|)
      && (o.Defined? && o.outcome != AbortLength ==> FrameFits(row, start) && len < 48)
  {
    var lenByte := ByteAt(row, start + LEN_OFFSET);
    var len := lenByte as nat;
    if len > MAX_LEN then Defined(AbortLength)
    else if len + 3 > SOURCE_FRAME_CAPACITY then Undefined(FrameOverrun)
    else if FrameEnd(start, len) > |row| then Undefined(FrameOutsideRow)
    else if 1 + CrcByteCount(len) > SOURCE_FRAME_CAPACITY then Undefined(CrcCountWraps)
    else Defined(CheckFrame([lenByte] + ExtractBytes(row, start + BODY_OFFSET, len + 2)))
  }

  /** The original frame buffer filled: only lengths up to 47 keep the
      `len + 2` writes from index 1 inside its 50 bytes. */
  method ExtractFrameAsWritten(row: seq<bool>, pos: nat, len: nat) returns (frame: seq<bv8>)
    requires len + 3 <= SOURCE_FRAME_CAPACITY
    requires pos + 8 * (len + 2) <= |row|
    ensures |frame| == SOURCE_FRAME_CAPACITY
    ensures frame[0] as int == len
    ensures frame[1..len + 3] == ExtractBytes(row, pos, len + 2)
  {
    frame := FillFrame(row, pos, len, SOURCE_FRAME_CAPACITY);
  }

  /** The lengths the guard admits but the original buffer cannot take are
      exactly 48 to 50. */
  lemma GuardAdmitsOverrun(len: nat)
    ensures (len <= MAX_LEN && len + 3 > SOURCE_FRAME_CAPACITY) <==> 48 <= len <= MAX_LEN
  {
  }

  /** The original decoder. */
  function DecodeAsWritten(buf: Bitbuffer): (o: SourceOutcome)
    ensures o == Defined(AbortEarly) <==> |buf.rows| != 1 || !HasSync(buf.rows[0])
    ensures o.Undefined? ==> |buf.rows| == 1 && HasSync(buf.rows[0]) && |buf.rows[0]| >= MIN_ROW_BITS
    ensures o == Undefined(LengthByteOutsideRow) <==>
              && |buf.rows| == 1 && HasSync(buf.rows[0]) && |buf.rows[0]| >= MIN_ROW_BITS
              && Search(buf.rows[0], SYNC_BITS, 0) + BODY_OFFSET > |buf.rows[0]|
  {
    if |buf.rows| != 1 then Defined(AbortEarly)
    else
      var row := buf.rows[0];
      var start := Search(row, SYNC_BITS, 0);
      if start == |row| then Defined(AbortEarly)
      else if |row| < MIN_ROW_BITS then Defined(AbortLength)
      else if start + BODY_OFFSET > |row| then Undefined(LengthByteOutsideRow)
      else DecodeAtAsWritten(row, start)
  }

  /** Outcome by outcome, how the repaired decoder relates to the original
      once the length byte has been read. An overrunning frame that the row
      holds is checked by the repaired decoder, one the row does not hold
      is rejected on length. */
  lemma RepairedAgreesAt(row: seq<bool>, start: nat)
    requires start + BODY_OFFSET <= |row|
    ensures DecodeAtAsWritten(row, start).Defined? ==> DecodeAt(row, start) == DecodeAtAsWritten(row, start).outcome
    ensures DecodeAtAsWritten(row, start).Undefined? && DecodeAtAsWritten(row, start).hazard != FrameOverrun ==>
              DecodeAt(row, start) == AbortLength
    ensures DecodeAtAsWritten(row, start) == Undefined(FrameOverrun) ==>
              (FrameFits(row, start) <==> DecodeAt(row, start) != AbortLength)
  {
    var len := ByteAt(row, start + LEN_OFFSET) as nat;
    if len <= MAX_LEN && len + 3 <= SOURCE_FRAME_CAPACITY && FrameEnd(start, len) <= |row| {
      if len == 0 {
        assert DecodeAtAsWritten(row, start) == Undefined(CrcCountWraps);
      } else {
        assert 1 + CrcByteCount(len) <= SOURCE_FRAME_CAPACITY;
      }
    }
  }

  /** Wherever the original is defined the repaired decoder gives the same
      outcome; where it reads outside the row or miscounts the CRC bytes the
      repaired decoder aborts on length; where it overruns its frame buffer
      the repaired decoder proceeds from the same sync offset. */
  lemma RepairedAgreesWhereDefined(buf: Bitbuffer)
    ensures DecodeAsWritten(buf).Defined? ==> Decode(buf) == DecodeAsWritten(buf).outcome
    ensures DecodeAsWritten(buf).Undefined? && DecodeAsWritten(buf).hazard != FrameOverrun ==>
              Decode(buf) == AbortLength
    ensures DecodeAsWritten(buf) == Undefined(FrameOverrun) ==>
              Decode(buf) == DecodeAt(buf.rows[0], Search(buf.rows[0], SYNC_BITS, 0))
  {
    if |buf.rows| == 1 {
      var row := buf.rows[0];
      var start := Search(row, SYNC_BITS, 0);
      if start < |row| && |row| >= MIN_ROW_BITS && start + BODY_OFFSET <= |row| {
        RepairedAgreesAt(row, start);
      }
    }
  }

  /** A row holding the sync pattern, a length byte and then `bytes`. */
  function SyncedRow(len: bv8, bytes: seq<bv8>): seq<bool>
  {
    BitsOfBytes(SYNC + [len] + bytes)
  }

  lemma SyncedRowLayout(len: bv8, bytes: seq<bv8>)
    ensures var row := SyncedRow(len, bytes);
            && |row| == BODY_OFFSET + 8 * |bytes|
            && Search(row, SYNC_BITS, 0) == 0
            && ByteAt(row, LEN_OFFSET) == len
  {
    var row := SyncedRow(len, bytes);
    var rest := [len] + bytes;
    assert SYNC + [len] + bytes == SYNC + rest;
    assert row == [] + BitsOfBytes(SYNC + rest) + [];
    SyncedLayout([], rest, []);
    SyncBitsFacts();
    SearchFindsFirst(row, SYNC_BITS, 0);
    assert ExtractBytes(row, LEN_OFFSET, |rest|)[0] == ByteAt(row, LEN_OFFSET);
  }

  /** Every complete frame with a length of 48 to 50 passes the length guard
      and is written past the end of the 50-byte frame buffer; the repaired
      decoder checks its CRC. */
  lemma FrameOverrunReachable(len: bv8, bytes: seq<bv8>)
    requires 48 <= len as int <= MAX_LEN
    requires |bytes| == len as int + 2
    ensures DecodeAsWritten(Bitbuffer([SyncedRow(len, bytes)])) == Undefined(FrameOverrun)
    ensures Decode(Bitbuffer([SyncedRow(len, bytes)])) == FailMic || Decode(Bitbuffer([SyncedRow(len, bytes)])).Decoded?
  {
    SyncedRowLayout(len, bytes);
  }

  /** A zero length byte after a long enough row makes the CRC routine read
      2^32 - 1 bytes from the frame buffer; the repaired decoder rejects it. */
  lemma ZeroLengthWrapsCrcCount(bytes: seq<bv8>)
    requires |bytes| >= 7
    ensures DecodeAsWritten(Bitbuffer([SyncedRow(0, bytes)])) == Undefined(CrcCountWraps)
    ensures Decode(Bitbuffer([SyncedRow(0, bytes)])) == AbortLength
  {
    SyncedRowLayout(0, bytes);
  }

  /** The 112-bit minimum does not make the row hold the frame: a row of at
      least 112 bits that ends inside the frame is read past its end; the
      repaired decoder rejects it. */
  lemma ShortRowReadPastEnd(len: bv8, bytes: seq<bv8>)
    requires 1 <= len as int <= 47
    requires 7 <= |bytes| < len as int + 2
    ensures DecodeAsWritten(Bitbuffer([SyncedRow(len, bytes)])) == Undefined(FrameOutsideRow)
    ensures Decode(Bitbuffer([SyncedRow(len, bytes)])) == AbortLength
  {
    SyncedRowLayout(len, bytes);
  }

  /** A sync pattern ending the row after at least 64 other bits passes the
      112-bit minimum, and the length byte is then read past the end of the
      row; the repaired decoder rejects it. */
  lemma LengthByteReadPastEnd(k: nat)
    requires k >= 64
    ensures DecodeAsWritten(Bitbuffer([seq(k, _ => false) + SYNC_BITS])) == Undefined(LengthByteOutsideRow)
    ensures Decode(Bitbuffer([seq(k, _ => false) + SYNC_BITS])) == AbortLength
  {
    var row := seq(k, _ => false) + SYNC_BITS;
    SyncBitsFacts();
    ZeroPrefixHasNoSync(row, k);
    assert row[k..k + LEN_OFFSET] == SYNC_BITS;
    SearchFindsFirst(row, SYNC_BITS, k);
  }
}

=== FILE: bits.dfy ===
/** Bits and bytes of a demodulated row.

A row is the sequence of bits one burst demodulated to, oldest bit first.
Bytes are read from a row most-significant bit first, at any bit offset:
this is the meaning of the bit-buffer byte extraction the decoder calls.
 */
module Bits {

  /** The byte holding a count below 256. */
  function ByteOfCount(n: nat): (b: bv8)
    requires n < 256
    ensures b as int == n
  {
    if n == 0 then 0 else ByteOfCount(n - 1) + 1
  }

  /** The eight bits of a byte, most significant first. */
  function BitsOfByte(b: bv8): seq<bool>
  {
    [ b & 0x80 != 0, b & 0x40 != 0, b & 0x20 != 0, b & 0x10 != 0,
      b & 0x08 != 0, b & 0x04 != 0, b & 0x02 != 0, b & 0x01 != 0 ]
  }

  function BitValue(x: bool, mask: bv8): bv8
  {
    if x then mask else 0
  }

  /** The byte built from eight bits, most significant first. */
  function Pack(x0: bool, x1: bool, x2: bool, x3: bool, x4: bool, x5: bool, x6: bool, x7: bool): bv8
  {
    BitValue(x0, 0x80) | BitValue(x1, 0x40) | BitValue(x2, 0x20) | BitValue(x3, 0x10) |
    BitValue(x4, 0x08) | BitValue(x5, 0x04) | BitValue(x6, 0x02) | BitValue(x7, 0x01)
  }

  function ByteOfBits(bits: seq<bool>): bv8
    requires |bits| == 8
  {
    Pack(bits[0], bits[1], bits[2], bits[3], bits[4], bits[5], bits[6], bits[7])
  }

  lemma ByteRoundTrip(b: bv8)
    ensures ByteOfBits(BitsOfByte(b)) == b
  {
  }

  lemma PackHigh(x0: bool, x1: bool, x2: bool, x3: bool, x4: bool, x5: bool, x6: bool, x7: bool)
    ensures var b := Pack(x0, x1, x2, x3, x4, x5, x6, x7);
            (b & 0x80 != 0) == x0 && (b & 0x40 != 0) == x1 && (b & 0x20 != 0) == x2 && (b & 0x10 != 0) == x3
  {
  }

  lemma PackLow(x0: bool, x1: bool, x2: bool, x3: bool, x4: bool, x5: bool, x6: bool, x7: bool)
    ensures var b := Pack(x0, x1, x2, x3, x4, x5, x6, x7);
            (b & 0x08 != 0) == x4 && (b & 0x04 != 0) == x5 && (b & 0x02 != 0) == x6 && (b & 0x01 != 0) == x7
  {
  }

  lemma BitsRoundTrip(bits: seq<bool>)
    requires |bits| == 8
    ensures BitsOfByte(ByteOfBits(bits)) == bits
  {
    SeqOf8(bits);
    PackRoundTrip(bits[0], bits[1], bits[2], bits[3], bits[4], bits[5], bits[6], bits[7]);
  }

  lemma SeqOf8<T>(xs: seq<T>)
    requires |xs| == 8
    ensures xs == [xs[0], xs[1], xs[2], xs[3], xs[4], xs[5], xs[6], xs[7]]
  {
  }

  lemma PackRoundTrip(x0: bool, x1: bool, x2: bool, x3: bool, x4: bool, x5: bool, x6: bool, x7: bool)
    ensures BitsOfByte(Pack(x0, x1, x2, x3, x4, x5, x6, x7)) == [x0, x1, x2, x3, x4, x5, x6, x7]
  {
    PackHigh(x0, x1, x2, x3, x4, x5, x6, x7);
    PackLow(x0, x1, x2, x3, x4, x5, x6, x7);
  }

  function BitOf(x: bool): nat
  {
    if x then 1 else 0
  }

  /** The unsigned number whose binary digits, most significant first, are
      the first `k` entries of `bits`. */
  function ValueUpTo(bits: seq<bool>, k: nat): nat
    requires k <= |bits|
  {
    if k == 0 then 0 else 2 * ValueUpTo(bits, k - 1) + BitOf(bits[k - 1])
  }

  /** The unsigned number written by `bits`, most significant bit first:
      how C reads a register of `|bits|` bits as an integer. */
  function Value(bits: seq<bool>): nat
  {
    ValueUpTo(bits, |bits|)
  }

  function Pow2(n: nat): (p: nat)
    ensures p > 0
  {
    if n == 0 then 1 else 2 * Pow2(n - 1)
  }

  /** The byte's own value: the eight bits of `b` read as a number give `b`. */
  lemma ValueOfByte(b: bv8)
    ensures Value(BitsOfByte(b)) == b as int
  {
    Value8(BitsOfByte(b));
    ByteBitsSum(b);
  }

  lemma ByteBitsSum(b: bv8)
    ensures var s := BitsOfByte(b);
      b as int
        == 128 * BitOf(s[0]) + 64 * BitOf(s[1]) + 32 * BitOf(s[2]) + 16 * BitOf(s[3])
         + 8 * BitOf(s[4]) + 4 * BitOf(s[5]) + 2 * BitOf(s[6]) + BitOf(s[7])
  {
  }

  lemma Value8(s: seq<bool>)
    requires |s| == 8
    ensures Value(s)
         == 128 * BitOf(s[0]) + 64 * BitOf(s[1]) + 32 * BitOf(s[2]) + 16 * BitOf(s[3])
          + 8 * BitOf(s[4]) + 4 * BitOf(s[5]) + 2 * BitOf(s[6]) + BitOf(s[7])
  {
    var v1 := ValueUpTo(s, 1);
    var v2 := ValueUpTo(s, 2);
    var v3 := ValueUpTo(s, 3);
    var v4 := ValueUpTo(s, 4);
    var v5 := ValueUpTo(s, 5);
    var v6 := ValueUpTo(s, 6);
    var v7 := ValueUpTo(s, 7);
    assert ValueUpTo(s, 0) == 0;
    assert v1 == BitOf(s[0]);
    assert v2 == 2 * v1 + BitOf(s[1]);
    assert v3 == 2 * v2 + BitOf(s[2]);
    assert v4 == 2 * v3 + BitOf(s[3]);
    assert v5 == 2 * v4 + BitOf(s[4]);
    assert v6 == 2 * v5 + BitOf(s[5]);
    assert v7 == 2 * v6 + BitOf(s[6]);
  }

  /** A number of `k` binary digits is below `2^k`. */
  lemma {:induction false} ValueUpToBound(bits: seq<bool>, k: nat)
    requires k <= |bits|
    ensures ValueUpTo(bits, k) < Pow2(k)
  {
    if k > 0 {
      ValueUpToBound(bits, k - 1);
    }
  }

  /** A 16-bit register read as a number fits in `uint16_t`. */
  lemma WordBound(r: seq<bool>)
    requires |r| == 16
    ensures Value(r) < 0x1_0000
  {
    ValueUpToBound(r, 16);
    assert Pow2(0) == 1;
    assert Pow2(1) == 2;
    assert Pow2(2) == 4;
    assert Pow2(3) == 8;
    assert Pow2(4) == 16;
    assert Pow2(5) == 32;
    assert Pow2(6) == 64;
    assert Pow2(7) == 128;
    assert Pow2(8) == 256;
    assert Pow2(9) == 512;
    assert Pow2(10) == 1024;
    assert Pow2(11) == 2048;
    assert Pow2(12) == 4096;
    assert Pow2(13) == 8192;
    assert Pow2(14) == 16384;
    assert Pow2(15) == 32768;
    assert Pow2(16) == 65536;
  }

  /** The value of a prefix depends on the prefix alone. */
  lemma {:induction false} ValueUpToLocal(s: seq<bool>, t: seq<bool>, k: nat)
    requires k <= |s| && k <= |t| && s[..k] == t[..k]
    ensures ValueUpTo(s, k) == ValueUpTo(t, k)
  {
    if k > 0 {
      assert s[..k - 1] == s[..k][..k - 1] && t[..k - 1] == t[..k][..k - 1];
      assert s[k - 1] == s[..k][k - 1] && t[k - 1] == t[..k][k - 1];
      ValueUpToLocal(s, t, k - 1);
    }
  }

  /** Concatenation shifts the high part left by the width of the low part,
      as `hi << n | lo` does. */
  lemma {:induction false} ValueUpToAppend(a: seq<bool>, b: seq<bool>, k: nat)
    requires k <= |b|
    ensures ValueUpTo(a + b, |a| + k) == Value(a) * Pow2(k) + ValueUpTo(b, k)
  {
    if k == 0 {
      assert (a + b)[..|a|] == a[..|a|];
      ValueUpToLocal(a + b, a, |a|);
    } else {
      ValueUpToAppend(a, b, k - 1);
      var ab := a + b;
      assert ab[|a| + k - 1] == b[k - 1];
      var high, p, low, x := Value(a), Pow2(k - 1), ValueUpTo(b, k - 1), BitOf(b[k - 1]);
      assert ValueUpTo(ab, |a| + k) == 2 * (high * p + low) + x;
      ShiftInBit(high, p, low, x);
    }
  }

  lemma ShiftInBit(high: nat, p: nat, low: nat, x: nat)
    ensures 2 * (high * p + low) + x == high * (2 * p) + (2 * low + x)
  {
  }

  lemma ValueAppend(a: seq<bool>, b: seq<bool>)
    ensures Value(a + b) == Value(a) * Pow2(|b|) + Value(b)
  {
    ValueUpToAppend(a, b, |b|);
  }

  /** Two bit strings of one width with the same value are the same string:
      comparing registers bit by bit and comparing their values agree. */
  lemma {:induction false} ValueUpToInjective(s: seq<bool>, t: seq<bool>, k: nat)
    requires k <= |s| && k <= |t|
    requires ValueUpTo(s, k) == ValueUpTo(t, k)
    ensures s[..k] == t[..k]
  {
    if k > 0 {
      ValueUpToInjective(s, t, k - 1);
      assert s[k - 1] == t[k - 1];
      assert s[..k] == s[..k - 1] + [s[k - 1]];
      assert t[..k] == t[..k - 1] + [t[k - 1]];
    }
  }

  lemma ValueInjective(s: seq<bool>, t: seq<bool>)
    requires |s| == |t|
    ensures Value(s) == Value(t) <==> s == t
  {
    if Value(s) == Value(t) {
      ValueUpToInjective(s, t, |s|);
      assert s[..|s|] == s && t[..|t|] == t;
    }
  }

  /** The bits of a byte string, each byte most significant bit first. */
  function BitsOfBytes(bytes: seq<bv8>): (bits: seq<bool>)
    ensures |bits| == 8 * |bytes|
  {
    if |bytes| == 0 then [] else BitsOfByte(bytes[0]) + BitsOfBytes(bytes[1..])
  }

  lemma {:induction false} BitsOfBytesAppend(a: seq<bv8>, b: seq<bv8>)
    ensures BitsOfBytes(a + b) == BitsOfBytes(a) + BitsOfBytes(b)
    decreases |a|
  {
    if |a| == 0 {
      assert a + b == b;
    } else {
      assert (a + b)[1..] == a[1..] + b;
      BitsOfBytesAppend(a[1..], b);
    }
  }

  /** The byte stored at bit offset `pos` of `row`. */
  function ByteAt(row: seq<bool>, pos: nat): bv8
    requires pos + 8 <= |row|
  {
    ByteOfBits(row[pos..pos + 8])
  }

  /** `n` consecutive bytes read from bit offset `pos`: the model of
      extracting `8 * n` bits into a byte buffer. */
  function ExtractBytes(row: seq<bool>, pos: nat, n: nat): (bytes: seq<bv8>)
    requires pos + 8 * n <= |row|
    ensures |bytes| == n
  {
    seq(n, i requires 0 <= i < n => ByteAt(row, pos + 8 * i))
  }

  /** Extraction inverts serialisation, wherever the bytes sit in the row. */
  lemma {:induction false} ExtractOfBits(pre: seq<bool>, bytes: seq<bv8>, post: seq<bool>)
    ensures ExtractBytes(pre + BitsOfBytes(bytes) + post, |pre|, |bytes|) == bytes
    decreases |bytes|
  {
    if |bytes| > 0 {
      var row := pre + BitsOfBytes(bytes) + post;
      var head, tail := BitsOfByte(bytes[0]), bytes[1..];
      assert [bytes[0]] + tail == bytes;
      BitsOfBytesCons(bytes[0], tail);
      Regroup(pre, head, BitsOfBytes(tail), post);
      ExtractCons(row, |pre|, |bytes|);
      ByteRoundTrip(bytes[0]);
      ExtractOfBits(pre + head, tail, post);
    }
  }

  /** Regrouping a concatenation, and finding its second part again. */
  lemma Regroup<T>(a: seq<T>, b: seq<T>, c: seq<T>, d: seq<T>)
    ensures a + (b + c) + d == (a + b) + c + d
    ensures (a + (b + c) + d)[|a|..|a| + |b|] == b
  {
    assert (a + b + c + d)[|a|..|a| + |b|] == b;
  }

  /** Serialisation inverts extraction: the bytes read carry exactly the bits
      of the window they were read from. */
  lemma {:induction false} BitsOfExtract(row: seq<bool>, pos: nat, n: nat)
    requires pos + 8 * n <= |row|
    ensures BitsOfBytes(ExtractBytes(row, pos, n)) == row[pos..pos + 8 * n]
    decreases n
  {
    if n > 0 {
      var head, tail := ByteAt(row, pos), ExtractBytes(row, pos + 8, n - 1);
      ExtractCons(row, pos, n);
      BitsOfBytesCons(head, tail);
      BitsOfExtract(row, pos + 8, n - 1);
      BitsRoundTrip(row[pos..pos + 8]);
      assert row[pos..pos + 8 * n] == row[pos..pos + 8] + row[pos + 8..pos + 8 * n];
    }
  }

  lemma ExtractCons(row: seq<bool>, pos: nat, n: nat)
    requires 0 < n && pos + 8 * n <= |row|
    ensures ExtractBytes(row, pos, n) == [ByteAt(row, pos)] + ExtractBytes(row, pos + 8, n - 1)
  {
    var tail := ExtractBytes(row, pos + 8, n - 1);
    forall i | 1 <= i < n
      ensures ExtractBytes(row, pos, n)[i] == tail[i - 1]
    {
      assert pos + 8 * i == pos + 8 + 8 * (i - 1);
    }
  }

  lemma BitsOfBytesCons(b: bv8, bytes: seq<bv8>)
    ensures BitsOfBytes([b] + bytes) == BitsOfByte(b) + BitsOfBytes(bytes)
  {
    assert ([b] + bytes)[1..] == bytes;
  }

  /** Extraction reads only the bits of its window. */
  lemma ExtractLocal(row: seq<bool>, row': seq<bool>, pos: nat, n: nat)
    requires pos + 8 * n <= |row| && pos + 8 * n <= |row'|
    requires row[pos..pos + 8 * n] == row'[pos..pos + 8 * n]
    ensures ExtractBytes(row, pos, n) == ExtractBytes(row', pos, n)
  {
    BitsOfExtract(row, pos, n);
    BitsOfExtract(row', pos, n);
    BitsOfBytesInjective(ExtractBytes(row, pos, n), ExtractBytes(row', pos, n));
  }

  lemma {:induction false} BitsOfBytesInjective(a: seq<bv8>, b: seq<bv8>)
    requires BitsOfBytes(a) == BitsOfBytes(b)
    ensures a == b
    decreases |a|
  {
    if |a| > 0 {
      var ba, bb := BitsOfBytes(a), BitsOfBytes(b);
      assert ba[..8] == BitsOfByte(a[0]);
      assert bb[..8] == BitsOfByte(b[0]);
      ByteRoundTrip(a[0]);
      ByteRoundTrip(b[0]);
      assert ba[8..] == BitsOfBytes(a[1..]);
      assert bb[8..] == BitsOfBytes(b[1..]);
      BitsOfBytesInjective(a[1..], b[1..]);
    }
  }

  /** A contiguous part of an extraction is the extraction of that part. */
  lemma ExtractSlice(row: seq<bool>, pos: nat, n: nat, lo: nat, hi: nat)
    requires pos + 8 * n <= |row|
    requires lo <= hi <= n
    ensures ExtractBytes(row, pos, n)[lo..hi] == ExtractBytes(row, pos + 8 * lo, hi - lo)
  {
    var whole := ExtractBytes(row, pos, n);
    var part := ExtractBytes(row, pos + 8 * lo, hi - lo);
    assert forall i :: 0 <= i < hi - lo ==> whole[lo..hi][i] == part[i] by {
      forall i | 0 <= i < hi - lo
        ensures whole[lo..hi][i] == part[i]
      {
        assert pos + 8 * (lo + i) == pos + 8 * lo + 8 * i;
      }
    }
  }

  /** A row with bit `k` inverted. */
  function Flip(row: seq<bool>, k: nat): (flipped: seq<bool>)
    requires k < |row|
    ensures |flipped| == |row|
    ensures flipped[k] != row[k]
    ensures forall i :: 0 <= i < |row| && i != k ==> flipped[i] == row[i]
  {
    row[k := !row[k]]
  }

  /** A window of a row with one bit flipped is the window with that bit
      flipped, or the window unchanged when the bit lies outside it. */
  lemma FlipWindow(row: seq<bool>, k: nat, lo: nat, hi: nat)
    requires k < |row| && lo <= hi <= |row|
    ensures lo <= k < hi ==> Flip(row, k)[lo..hi] == Flip(row[lo..hi], k - lo)
    ensures !(lo <= k < hi) ==> Flip(row, k)[lo..hi] == row[lo..hi]
  {
  }
}

=== FILE: crc16.dfy ===
/** CRC-16 as the decoder uses it: polynomial 0x8005, initial value 0xFFFF,
most significant bit first, no reflection and no final XOR.

A 16-bit register is a sequence of 16 bits, most significant first, so that
a register compares directly with the two checksum bytes as they sit in a
row. `Crc16` follows the byte-at-a-time shape of the helper the decoder
calls: XOR the byte into the high half, then shift eight times. `CrcBits`
is an independent reference: the bit-serial polynomial division, one
message bit per step. The two are proved equal, and the reference is used to
prove that every single-bit error changes the checksum.
 */
module Crc {
  import opened Bits

  /** 0x8005: x^16 + x^15 + x^2 + 1 without its leading term. */
  const POLY: seq<bool> := BitsOfBytes([0x80, 0x05])
  /** 0xFFFF. */
  const INIT: seq<bool> := BitsOfBytes([0xFF, 0xFF])

  predicate IsRegister(r: seq<bool>)
  {
    |r| == 16
  }

  /** Bitwise exclusive or of two equally long bit strings. */
  function Xor(a: seq<bool>, b: seq<bool>): (c: seq<bool>)
    requires |a| == |b|
    ensures |c| == |a|
    ensures forall i :: 0 <= i < |a| ==> c[i] == (a[i] != b[i])
  {
    seq(|a|, i requires 0 <= i < |a| => a[i] != b[i])
  }

  /** Shift left by one, a zero entering at the least significant end. */
  function ShiftLeft(r: seq<bool>): (s: seq<bool>)
    requires |r| > 0
    ensures |s| == |r|
    ensures forall i :: 0 <= i < |r| - 1 ==> s[i] == r[i + 1]
    ensures !s[|r| - 1]
  {
    r[1..] + [false]
  }

  /** One shift of the register with the polynomial folded in on carry-out. */
  function Shift(reg: seq<bool>, poly: seq<bool>): (r: seq<bool>)
    requires IsRegister(reg) && IsRegister(poly)
    ensures IsRegister(r)
  {
    if reg[0] then Xor(ShiftLeft(reg), poly) else ShiftLeft(reg)
  }

  function Shifts(reg: seq<bool>, n: nat, poly: seq<bool>): (r: seq<bool>)
    requires IsRegister(reg) && IsRegister(poly)
    ensures IsRegister(r)
  {
    if n == 0 then reg else Shift(Shifts(reg, n - 1, poly), poly)
  }

  const ZERO_BYTE: seq<bool> := [false, false, false, false, false, false, false, false]

  /** The register after one message byte: the byte is XORed into the high
      half of the register, then the register is shifted eight times. */
  function CrcByte(reg: seq<bool>, b: bv8, poly: seq<bool>): (r: seq<bool>)
    requires IsRegister(reg) && IsRegister(poly)
    ensures IsRegister(r)
  {
    Shifts(Xor(reg, BitsOfByte(b) + ZERO_BYTE), 8, poly)
  }

  function CrcBytes(reg: seq<bool>, msg: seq<bv8>, poly: seq<bool>): (r: seq<bool>)
    requires IsRegister(reg) && IsRegister(poly)
    ensures IsRegister(r)
    decreases |msg|
  {
    if |msg| == 0 then reg else CrcBytes(CrcByte(reg, msg[0], poly), msg[1..], poly)
  }

  /** The checksum of `msg` with the given polynomial and initial value. */
  function Crc16(msg: seq<bv8>, poly: seq<bool>, init: seq<bool>): (r: seq<bool>)
    requires IsRegister(poly) && IsRegister(init)
    ensures IsRegister(r)
  {
    CrcBytes(init, msg, poly)
  }

  /** Reference division step: the incoming bit is compared with the bit
      leaving the register, and the polynomial is subtracted when they differ. */
  function StepBit(reg: seq<bool>, bit: bool, poly: seq<bool>): (r: seq<bool>)
    requires IsRegister(reg) && IsRegister(poly)
    ensures IsRegister(r)
  {
    if reg[0] != bit then Xor(ShiftLeft(reg), poly) else ShiftLeft(reg)
  }

  function CrcBits(reg: seq<bool>, bits: seq<bool>, poly: seq<bool>): (r: seq<bool>)
    requires IsRegister(reg) && IsRegister(poly)
    ensures IsRegister(r)
    decreases |bits|
  {
    if |bits| == 0 then reg else CrcBits(StepBit(reg, bits[0], poly), bits[1..], poly)
  }

  lemma {:induction false} CrcBitsAppend(reg: seq<bool>, a: seq<bool>, b: seq<bool>, poly: seq<bool>)
    requires IsRegister(reg) && IsRegister(poly)
    ensures CrcBits(reg, a + b, poly) == CrcBits(CrcBits(reg, a, poly), b, poly)
    decreases |a|
  {
    if |a| > 0 {
      assert (a + b)[0] == a[0];
      assert (a + b)[1..] == a[1..] + b;
      CrcBitsAppend(StepBit(reg, a[0], poly), a[1..], b, poly);
    } else {
      assert a + b == b;
    }
  }

  /** Shifting a register that still holds unprocessed message bits `p` is a
      division step on the bit leaving `p`, with the rest of `p` shifted along. */
  lemma ShiftSplits(r: seq<bool>, p: seq<bool>, poly: seq<bool>)
    requires IsRegister(r) && IsRegister(p) && IsRegister(poly)
    ensures Shift(Xor(r, p), poly) == Xor(StepBit(r, p[0], poly), ShiftLeft(p))
  {
    var q := Xor(r, p);
    assert ShiftLeft(q) == Xor(ShiftLeft(r), ShiftLeft(p));
    if q[0] {
      assert Xor(Xor(ShiftLeft(r), ShiftLeft(p)), poly) == Xor(Xor(ShiftLeft(r), poly), ShiftLeft(p));
    }
  }

  /** The bits of the byte not yet divided after `k` of its shifts, as they
      sit in the register. */
  function Pending(s: seq<bool>, k: nat): (p: seq<bool>)
    requires |s| == 8 && k <= 8
    ensures IsRegister(p)
  {
    s[k..] + seq(8 + k, _ => false)
  }

  lemma {:induction false} ShiftsFeedBits(reg: seq<bool>, s: seq<bool>, k: nat, poly: seq<bool>)
    requires IsRegister(reg) && IsRegister(poly)
    requires |s| == 8 && k <= 8
    ensures Shifts(Xor(reg, s + ZERO_BYTE), k, poly) == Xor(CrcBits(reg, s[..k], poly), Pending(s, k))
  {
    if k == 0 {
      assert s[..0] == [];
      assert Pending(s, 0) == s + ZERO_BYTE;
    } else {
      ShiftsFeedBits(reg, s, k - 1, poly);
      FeedOneBit(reg, s, k, poly);
    }
  }

  /** One more shift divides by one more bit of the byte. */
  lemma FeedOneBit(reg: seq<bool>, s: seq<bool>, k: nat, poly: seq<bool>)
    requires IsRegister(reg) && IsRegister(poly)
    requires |s| == 8 && 1 <= k <= 8
    requires Shifts(Xor(reg, s + ZERO_BYTE), k - 1, poly) == Xor(CrcBits(reg, s[..k - 1], poly), Pending(s, k - 1))
    ensures Shifts(Xor(reg, s + ZERO_BYTE), k, poly) == Xor(CrcBits(reg, s[..k], poly), Pending(s, k))
  {
    ShiftSplits(CrcBits(reg, s[..k - 1], poly), Pending(s, k - 1), poly);
    PendingShift(s, k);
    CrcBitsSnoc(reg, s, k, poly);
  }

  /** One shift moves the next bit of the byte to the top of the pending bits. */
  lemma PendingShift(s: seq<bool>, k: nat)
    requires |s| == 8 && 1 <= k <= 8
    ensures Pending(s, k - 1)[0] == s[k - 1]
    ensures ShiftLeft(Pending(s, k - 1)) == Pending(s, k)
  {
    var p, q := Pending(s, k - 1), Pending(s, k);
    forall i | 0 <= i < 16
      ensures ShiftLeft(p)[i] == q[i]
    {
      if i < 8 - k {
        assert q[i] == s[k + i];
      }
    }
  }

  /** Dividing by one more bit is one more division step. */
  lemma CrcBitsSnoc(reg: seq<bool>, s: seq<bool>, k: nat, poly: seq<bool>)
    requires IsRegister(reg) && IsRegister(poly)
    requires 1 <= k <= |s|
    ensures CrcBits(reg, s[..k], poly) == StepBit(CrcBits(reg, s[..k - 1], poly), s[k - 1], poly)
  {
    assert s[..k] == s[..k - 1] + [s[k - 1]];
    CrcBitsAppend(reg, s[..k - 1], [s[k - 1]], poly);
    var r := CrcBits(reg, s[..k - 1], poly);
    assert CrcBits(r, [s[k - 1]], poly) == CrcBits(StepBit(r, s[k - 1], poly), [], poly);
  }

  /** Processing one byte at once is the same as dividing by its eight bits. */
  lemma CrcByteIsBitSerial(reg: seq<bool>, b: bv8, poly: seq<bool>)
    requires IsRegister(reg) && IsRegister(poly)
    ensures CrcByte(reg, b, poly) == CrcBits(reg, BitsOfByte(b), poly)
  {
    var s := BitsOfByte(b);
    ShiftsFeedBits(reg, s, 8, poly);
    assert s[..8] == s;
    var r := CrcBits(reg, s, poly);
    assert Xor(r, Pending(s, 8)) == r;
  }

  /** The byte-wise checksum is the bit-serial division of the message's
      bits, most significant bit of each byte first. */
  lemma {:induction false} CrcBytesIsBitSerial(reg: seq<bool>, msg: seq<bv8>, poly: seq<bool>)
    requires IsRegister(reg) && IsRegister(poly)
    ensures CrcBytes(reg, msg, poly) == CrcBits(reg, BitsOfBytes(msg), poly)
    decreases |msg|
  {
    if |msg| > 0 {
      CrcByteIsBitSerial(reg, msg[0], poly);
      CrcBitsAppend(reg, BitsOfByte(msg[0]), BitsOfBytes(msg[1..]), poly);
      CrcBytesIsBitSerial(CrcByte(reg, msg[0], poly), msg[1..], poly);
    }
  }

  lemma Crc16IsBitSerial(msg: seq<bv8>, poly: seq<bool>, init: seq<bool>)
    requires IsRegister(poly) && IsRegister(init)
    ensures Crc16(msg, poly, init) == CrcBits(init, BitsOfBytes(msg), poly)
  {
    CrcBytesIsBitSerial(init, msg, poly);
  }

  /** With the x^0 term present, a division step keeps two different
      registers different. */
  lemma StepKeepsDistinct(r1: seq<bool>, r2: seq<bool>, bit: bool, poly: seq<bool>)
    requires IsRegister(r1) && IsRegister(r2) && IsRegister(poly)
    requires poly[15]
    requires r1 != r2
    ensures StepBit(r1, bit, poly) != StepBit(r2, bit, poly)
  {
    var s1, s2 := StepBit(r1, bit, poly), StepBit(r2, bit, poly);
    if r1[0] != r2[0] {
      assert s1[15] != s2[15];
    } else {
      var j :| 0 <= j < 16 && r1[j] != r2[j];
      assert j >= 1;
      assert s1[j - 1] != s2[j - 1];
    }
  }

  lemma {:induction false} DistinctRegistersStayDistinct(r1: seq<bool>, r2: seq<bool>, bits: seq<bool>, poly: seq<bool>)
    requires IsRegister(r1) && IsRegister(r2) && IsRegister(poly)
    requires poly[15]
    requires r1 != r2
    ensures CrcBits(r1, bits, poly) != CrcBits(r2, bits, poly)
    decreases |bits|
  {
    if |bits| > 0 {
      StepKeepsDistinct(r1, r2, bits[0], poly);
      DistinctRegistersStayDistinct(StepBit(r1, bits[0], poly), StepBit(r2, bits[0], poly), bits[1..], poly);
    }
  }

  /** Every single-bit error in the message changes the checksum. */
  lemma {:induction false} SingleBitErrorDetected(reg: seq<bool>, bits: seq<bool>, k: nat, poly: seq<bool>)
    requires IsRegister(reg) && IsRegister(poly)
    requires poly[15]
    requires k < |bits|
    ensures CrcBits(reg, bits, poly) != CrcBits(reg, Flip(bits, k), poly)
    decreases k
  {
    var flipped := Flip(bits, k);
    if k == 0 {
      assert flipped[1..] == bits[1..];
      var s1, s2 := StepBit(reg, bits[0], poly), StepBit(reg, flipped[0], poly);
      assert s1[15] != s2[15];
      DistinctRegistersStayDistinct(s1, s2, bits[1..], poly);
    } else {
      assert flipped[0] == bits[0];
      assert flipped[1..] == Flip(bits[1..], k - 1);
      SingleBitErrorDetected(StepBit(reg, bits[0], poly), bits[1..], k - 1, poly);
    }
  }
}

=== FILE: hex.dfy ===
/** Lower-case hexadecimal rendering of bytes, two digits per byte with no
separator: the meaning of printing each byte with the `%02x` format.
`Unhex` reads such a string back and is the partner used to show that the
rendering loses nothing.
 */
module HexFormat {
  import opened Bits

  datatype Option<T> = None | Some(value: T)

  const DIGITS: string := "0123456789abcdef"

  function Digit(n: nat): char
    requires n < 16
  {
    DIGITS[n]
  }

  /** The two digits of one byte, high nibble first. */
  function HexByte(b: bv8): string
  {
    [Digit(b as int / 16), Digit(b as int % 16)]
  }

  function Hex(bytes: seq<bv8>): (s: string)
    ensures |s| == 2 * |bytes|
  {
    if |bytes| == 0 then "" else HexByte(bytes[0]) + Hex(bytes[1..])
  }

  lemma {:induction false} HexAppend(a: seq<bv8>, b: seq<bv8>)
    ensures Hex(a + b) == Hex(a) + Hex(b)
    decreases |a|
  {
    if |a| == 0 {
      assert a + b == b;
    } else {
      assert (a + b)[1..] == a[1..] + b;
      HexAppend(a[1..], b);
    }
  }

  /** Every character of a rendering is a lower-case hexadecimal digit. */
  predicate IsLowerHex(s: string)
  {
    forall i :: 0 <= i < |s| ==> s[i] in DIGITS
  }

  lemma {:induction false} HexIsLowerHex(bytes: seq<bv8>)
    ensures IsLowerHex(Hex(bytes))
    decreases |bytes|
  {
    if |bytes| > 0 {
      HexIsLowerHex(bytes[1..]);
      var s := Hex(bytes);
      assert s == HexByte(bytes[0]) + Hex(bytes[1..]);
      forall i | 0 <= i < |s|
        ensures s[i] in DIGITS
      {
        if i >= 2 {
          assert s[i] == Hex(bytes[1..])[i - 2];
        }
      }
    }
  }

  /** The value of a lower-case hexadecimal digit, or `None` for any other
      character. */
  function DigitValue(c: char): (v: Option<nat>)
    ensures v.Some? ==> v.value < 16 && Digit(v.value) == c
  {
    if '0' <= c <= '9' then Some(c as int - '0' as int)
    else if 'a' <= c <= 'f' then Some(c as int - 'a' as int + 10)
    else None
  }

  lemma DigitValueOfDigit(n: nat)
    requires n < 16
    ensures DigitValue(Digit(n)) == Some(n)
  {
  }

  /** Reads back a rendering; `None` for odd length or a non-digit. */
  function Unhex(s: string): Option<seq<bv8>>
    decreases |s|
  {
    if |s| == 0 then Some([])
    else if |s| == 1 then None
    else
      match (DigitValue(s[0]), DigitValue(s[1]), Unhex(s[2..]))
      case (Some(hi), Some(lo), Some(rest)) => Some([ByteOfCount(16 * hi + lo)] + rest)
      case _ => None
  }

  lemma NibblesRecombine(b: bv8)
    ensures ByteOfCount(16 * (b as int / 16) + b as int % 16) == b
  {
    var n := b as int;
    assert 16 * (n / 16) + n % 16 == n;
  }

  /** Rendering is invertible, so two byte strings render alike only if they
      are equal. */
  lemma {:induction false} UnhexHex(bytes: seq<bv8>)
    ensures Unhex(Hex(bytes)) == Some(bytes)
    decreases |bytes|
  {
    if |bytes| > 0 {
      UnhexHex(bytes[1..]);
      UnhexStep(bytes[0], Hex(bytes[1..]), bytes[1..]);
      assert [bytes[0]] + bytes[1..] == bytes;
    }
  }

  /** Reading back one more rendered byte. */
  lemma UnhexStep(b: bv8, s: string, rest: seq<bv8>)
    requires Unhex(s) == Some(rest)
    ensures Unhex(HexByte(b) + s) == Some([b] + rest)
  {
    var t := HexByte(b) + s;
    assert t[0] == Digit(b as int / 16) && t[1] == Digit(b as int % 16);
    assert t[2..] == s;
    DigitValueOfDigit(b as int / 16);
    DigitValueOfDigit(b as int % 16);
    NibblesRecombine(b);
  }

  lemma HexInjective(a: seq<bv8>, b: seq<bv8>)
    requires Hex(a) == Hex(b)
    ensures a == b
  {
    UnhexHex(a);
    UnhexHex(b);
  }
}

=== FILE: search.dfy ===
/** Bit-granular pattern search in a row: the meaning of the bit-buffer
search the decoder calls. The search returns the first offset at or after
`from` where the whole pattern fits in the row and matches it, and the row
length when there is none.
 */
module BitSearch {

  /** `pattern` occurs in `row` at bit offset `p`, entirely inside the row. */
  predicate MatchAt(row: seq<bool>, pattern: seq<bool>, p: nat)
  {
    p + |pattern| <= |row| && row[p..p + |pattern|] == pattern
  }

  function Search(row: seq<bool>, pattern: seq<bool>, from: nat): (r: nat)
    ensures r <= |row|
    ensures r < |row| ==> from <= r && MatchAt(row, pattern, r)
    ensures forall p :: from <= p < r ==> !MatchAt(row, pattern, p)
    ensures r == |row| && |pattern| > 0 ==> forall p :: from <= p ==> !MatchAt(row, pattern, p)
    decreases |row| - from
  {
    if from + |pattern| > |row| then |row|
    else if MatchAt(row, pattern, from) then from
    else Search(row, pattern, from + 1)
  }

  /** `p` is where the pattern first occurs in the row. */
  predicate IsFirstMatch(row: seq<bool>, pattern: seq<bool>, p: nat)
  {
    MatchAt(row, pattern, p) && forall q :: 0 <= q < p ==> !MatchAt(row, pattern, q)
  }

  /** A search from offset 0 lands on the first occurrence, whatever
      occurrences follow it. */
  lemma SearchFindsFirst(row: seq<bool>, pattern: seq<bool>, p: nat)
    requires |pattern| > 0
    requires IsFirstMatch(row, pattern, p)
    ensures Search(row, pattern, 0) == p
  {
  }

  /** Whether a match exists depends only on the bits the window covers:
      rows that agree on `[0, e)` agree on every match that ends by `e`. */
  lemma MatchLocal(row: seq<bool>, row': seq<bool>, pattern: seq<bool>, p: nat, e: nat)
    requires e <= |row| && e <= |row'| && row[..e] == row'[..e]
    requires p + |pattern| <= e
    ensures MatchAt(row, pattern, p) <==> MatchAt(row', pattern, p)
  {
    assert row[p..p + |pattern|] == row[..e][p..p + |pattern|];
    assert row'[p..p + |pattern|] == row'[..e][p..p + |pattern|];
  }

  /** The first match is preserved by any change to bits after its end. */
  lemma FirstMatchLocal(row: seq<bool>, row': seq<bool>, pattern: seq<bool>, p: nat, e: nat)
    requires e <= |row| && e <= |row'| && row[..e] == row'[..e]
    requires p + |pattern| <= e
    requires IsFirstMatch(row, pattern, p)
    ensures IsFirstMatch(row', pattern, p)
  {
    MatchLocal(row, row', pattern, p, e);
    forall q | 0 <= q < p
      ensures !MatchAt(row', pattern, q)
    {
      MatchLocal(row, row', pattern, q, e);
    }
  }
}

=== FILE: watts_vision.dfy ===
/** The Watts Vision frame decoder.

A capture is accepted only when it is a single row. In that row the decoder
looks for the last two preamble bytes and the 32-bit sync word
`d3 91 d3 91`, at any bit offset; the byte after them is the length `len`.
The frame buffer holds that length byte followed by `len + 2` bytes read
from the row:

    frame[0]                 length byte
    frame[1 .. len - 1]      covered by the inner CRC
    frame[len]               not covered by the inner CRC
    frame[len + 1 .. len + 2] inner CRC, big-endian

The CRC-16 over `frame[1 .. len - 1]` must equal the stored big-endian pair;
the record then carries `frame[1 .. len]` as lower-case hex. Any outer CRC
further along the row is never read.

This is the decoder with the four hazards of the original repaired (see
`AsWritten` for the original): the frame buffer has room for the largest
accepted length, a zero length is rejected, and a row too short to hold the
length byte or the frame is rejected instead of being read past its bit
count.
 */
module WattsVision {
  import opened Bits
  import opened Crc
  import opened HexFormat
  import opened BitSearch

  /** The last two preamble bytes, then the 32-bit sync word `d3 91 d3 91`. */
  const SYNC: seq<bv8> := [0xaa, 0xaa, 0xd3, 0x91, 0xd3, 0x91]
  const SYNC_BITS: seq<bool> := BitsOfBytes(SYNC)

  /** Bit offsets from the start of the sync pattern. */
  const LEN_OFFSET: nat := 48
  const BODY_OFFSET: nat := 56

  /** 4 preamble + 4 sync + length + 1 data + 2 CRC + 2 CRC bytes. */
  const MIN_ROW_BITS: nat := 14 * 8
  /** The largest accepted length byte. */
  const MAX_LEN: nat := 50
  /** Length byte, `MAX_LEN` bytes and the two inner CRC bytes. */
  const FRAME_CAPACITY: nat := MAX_LEN + 3

  const MODEL: string := "WattsVision"
  const MIC: string := "CRC"

  /** A capture: the rows the demodulator produced, each a sequence of bits. */
  datatype Bitbuffer = Bitbuffer(rows: seq<seq<bool>>)

  /** The three output fields, in their output order. */
  datatype Record = Record(model: string, raw: string, mic: string)

  /** Early abort, length abort, integrity failure, or one decoded record. */
  datatype Outcome = AbortEarly | AbortLength | FailMic | Decoded(record: Record)

  /** The bit offset just past the inner CRC of a frame of length `len`
      whose sync pattern starts at `start`. */
  function FrameEnd(start: nat, len: nat): nat
  {
    start + BODY_OFFSET + 8 * (len + 2)
  }

  /** The 16-bit big-endian value `hi << 8 | lo`, most significant bit first. */
  function Word(hi: bv8, lo: bv8): seq<bool>
  {
    BitsOfByte(hi) + BitsOfByte(lo)
  }

  /** The length byte after the sync pattern at `s`. */
  function Len(row: seq<bool>, s: nat): nat
    requires s + BODY_OFFSET <= |row|
  {
    ByteAt(row, s + LEN_OFFSET) as nat
  }

  /** The frame after the sync pattern at `s` fits the row and its length
      byte is acceptable. */
  predicate FrameFits(row: seq<bool>, s: nat)
  {
    && s + BODY_OFFSET <= |row|
    && 1 <= Len(row, s) <= MAX_LEN
    && FrameEnd(s, Len(row, s)) <= |row|
  }

  ghost predicate HasSync(row: seq<bool>)
  {
    exists p: nat :: MatchAt(row, SYNC_BITS, p)
  }

  /** A record as the decoder emits it: the fixed model and integrity tags
      and between 1 and `MAX_LEN` bytes in lower-case hex. */
  predicate WellFormed(r: Record)
  {
    && r.model == MODEL
    && r.mic == MIC
    && |r.raw| % 2 == 0
    && 2 <= |r.raw| <= 2 * MAX_LEN
    && IsLowerHex(r.raw)
  }

  /** The outcome for a frame buffer holding the length byte followed by the
      `len + 2` bytes read after it. */
  function CheckFrame(frame: seq<bv8>): (o: Outcome)
    requires |frame| > 0 && 1 <= frame[0] as int <= MAX_LEN
    requires |frame| == frame[0] as int + 3
    ensures o.Decoded? || o == FailMic
    ensures o.Decoded? ==> WellFormed(o.record)
  {
    var len := frame[0] as int;
    if Crc16(frame[1..len], POLY, INIT) != Word(frame[len + 1], frame[len + 2]) then FailMic
    else
      HexIsLowerHex(frame[1..len + 1]);
      Decoded(Record(MODEL, Hex(frame[1..len + 1]), MIC))
  }

  /** Decoding once the sync pattern has been found at `start`. */
  function DecodeAt(row: seq<bool>, start: nat): (o: Outcome)
    ensures o != AbortEarly
    ensures o.Decoded? ==> WellFormed(o.record)
  {
    if start + BODY_OFFSET > |row| then AbortLength
    else
      var lenByte := ByteAt(row, start + LEN_OFFSET);
      var len := lenByte as nat;
      if len > MAX_LEN then AbortLength
      else if len == 0 then AbortLength
      else if FrameEnd(start, len) > |row| then AbortLength
      else CheckFrame([lenByte] + ExtractBytes(row, start + BODY_OFFSET, len + 2))
  }

  function DecodeRow(row: seq<bool>): (o: Outcome)
    ensures o == AbortEarly <==> !HasSync(row)
    ensures HasSync(row) && |row| < MIN_ROW_BITS ==> o == AbortLength
    ensures o.Decoded? ==> WellFormed(o.record)
  {
    var start := Search(row, SYNC_BITS, 0);
    if start == |row| then AbortEarly
    else if |row| < MIN_ROW_BITS then AbortLength
    else DecodeAt(row, start)
  }

  function Decode(buf: Bitbuffer): (o: Outcome)
    ensures |buf.rows| != 1 ==> o == AbortEarly
    ensures |buf.rows| == 1 ==> (o == AbortEarly <==> !HasSync(buf.rows[0]))
    ensures o.Decoded? ==> WellFormed(o.record)
  {
    if |buf.rows| != 1 then AbortEarly else DecodeRow(buf.rows[0])
  }

  /** Fills a zeroed frame buffer of `capacity` bytes as the decoder does:
      the length byte at index 0, then `len + 2` bytes read from the row at
      `pos` into indices 1 to `len + 2`. Every write stays inside the buffer
      only when `len + 3 <= capacity`. */
  method FillFrame(row: seq<bool>, pos: nat, len: nat, capacity: nat) returns (frame: seq<bv8>)
    requires len < 256 && len + 3 <= capacity
    requires pos + 8 * (len + 2) <= |row|
    ensures |frame| == capacity
    ensures frame[0] as int == len
    ensures frame[1..len + 3] == ExtractBytes(row, pos, len + 2)
    ensures forall i :: len + 3 <= i < capacity ==> frame[i] == 0
  {
    var bytes := ExtractBytes(row, pos, len + 2);
    var buf := new bv8[capacity](_ => 0);
    buf[0] := ByteOfCount(len);
    var i := 0;
    while i < len + 2
      invariant 0 <= i <= len + 2
      invariant buf[0] as int == len
      invariant forall k :: 0 <= k < i ==> buf[k + 1] == bytes[k]
      invariant forall k :: i + 1 <= k < capacity ==> buf[k] == 0
    {
      buf[i + 1] := bytes[i];
      i := i + 1;
    }
    frame := buf[..];
    OffsetByOne(frame, bytes);
  }

  /** The repaired frame buffer: `FRAME_CAPACITY` bytes hold every length
      the guard admits. */
  method ExtractFrame(row: seq<bool>, pos: nat, len: nat) returns (frame: seq<bv8>)
    requires 1 <= len <= MAX_LEN
    requires pos + 8 * (len + 2) <= |row|
    ensures |frame| == FRAME_CAPACITY
    ensures frame[0] as int == len
    ensures frame[1..len + 3] == ExtractBytes(row, pos, len + 2)
    ensures forall i :: len + 3 <= i < FRAME_CAPACITY ==> frame[i] == 0
  {
    frame := FillFrame(row, pos, len, FRAME_CAPACITY);
  }

  lemma OffsetByOne(frame: seq<bv8>, bytes: seq<bv8>)
    requires |bytes| < |frame|
    requires forall k :: 0 <= k < |bytes| ==> frame[k + 1] == bytes[k]
    ensures frame[1..|bytes| + 1] == bytes
  {
  }

  /** The hex string built as the decoder builds it: a zeroed character
      buffer of twice the original frame capacity plus one, with each
      `%02x` conversion writing two digits and a terminating NUL. The buffer
      never overflows for an accepted length. */
  method FormatRaw(frame: seq<bv8>, len: nat) returns (raw: string)
    requires len <= MAX_LEN && len + 1 <= |frame|
    ensures raw == Hex(frame[1..len + 1])
  {
    var buf := new char[2 * 50 + 1](_ => '\0');
    var i := 0;
    while i < len
      invariant 0 <= i <= len
      invariant buf[..2 * i] == Hex(frame[1..i + 1])
    {
      var digits := HexByte(frame[i + 1]);
      ghost var done := buf[..2 * i];
      buf[2 * i] := digits[0];
      buf[2 * i + 1] := digits[1];
      buf[2 * i + 2] := '\0';
      assert buf[..2 * i + 2] == done + digits;
      HexSnoc(frame, i);
      i := i + 1;
    }
    raw := buf[..2 * len];
  }

  /** The rendering of one more frame byte extends the rendering so far. */
  lemma HexSnoc(frame: seq<bv8>, i: nat)
    requires i + 2 <= |frame|
    ensures Hex(frame[1..i + 2]) == Hex(frame[1..i + 1]) + HexByte(frame[i + 1])
  {
    HexAppend(frame[1..i + 1], [frame[i + 1]]);
    assert frame[1..i + 2] == frame[1..i + 1] + [frame[i + 1]];
  }
}

=== FILE: watts_vision_properties.dfy ===
/** What the decoder promises about the rows it accepts and rejects.

Throughout, `s` is where the sync pattern first occurs in the row and
`Len(row, s)` is the length byte after it. The frame then lies at fixed
bit offsets from `s`:

    s + 48                    length byte
    s + 56                    len - 1 bytes covered by the inner CRC
    UncoveredPos(s, len)      one byte the inner CRC does not cover
    CrcPos(s, len)            the 16 inner CRC bits, most significant first
    FrameEnd(s, len)          anything from here on (an outer CRC) is ignored
 */
module WattsVisionProperties {
  import opened Bits
  import opened Crc
  import opened HexFormat
  import opened BitSearch
  import opened WattsVision

  function UncoveredPos(s: nat, len: nat): nat
    requires len >= 1
  {
    s + BODY_OFFSET + 8 * (len - 1)
  }

  function CrcPos(s: nat, len: nat): nat
  {
    s + BODY_OFFSET + 8 * len
  }

  /** The row carries a complete frame of acceptable length after its first
      sync pattern at `s`: every guard of the decoder passes. */
  ghost predicate Framed(row: seq<bool>, s: nat)
  {
    && IsFirstMatch(row, SYNC_BITS, s)
    && |row| >= MIN_ROW_BITS
    && FrameFits(row, s)
  }

  /** The `len - 1` bytes the inner CRC covers. */
  function Covered(row: seq<bool>, s: nat): seq<bv8>
    requires FrameFits(row, s)
  {
    ExtractBytes(row, s + BODY_OFFSET, Len(row, s) - 1)
  }

  /** The `len` bytes an accepted frame reports. */
  function Shown(row: seq<bool>, s: nat): seq<bv8>
    requires FrameFits(row, s)
  {
    ExtractBytes(row, s + BODY_OFFSET, Len(row, s))
  }

  /** The stored inner CRC, most significant bit first. */
  function StoredCrc(row: seq<bool>, s: nat): seq<bool>
    requires FrameFits(row, s)
  {
    row[CrcPos(s, Len(row, s))..CrcPos(s, Len(row, s)) + 16]
  }

  lemma SyncBitsFacts()
    ensures |SYNC_BITS| == LEN_OFFSET
    ensures SYNC_BITS[0]
  {
    assert SYNC_BITS == BitsOfByte(SYNC[0]) + BitsOfBytes(SYNC[1..]);
  }

  lemma CrcParameters()
    ensures IsRegister(POLY) && IsRegister(INIT)
    ensures POLY[15]
  {
    assert POLY == BitsOfByte(0x80) + BitsOfBytes([0x05]);
    assert BitsOfBytes([0x05]) == BitsOfByte(0x05) + BitsOfBytes([]);
  }

  lemma WordIsBits(hi: bv8, lo: bv8)
    ensures Word(hi, lo) == BitsOfBytes([hi, lo])
  {
    assert [hi, lo][1..] == [lo];
    assert BitsOfBytes([lo]) == BitsOfByte(lo) + BitsOfBytes([]);
  }

  /** The first occurrence of the sync pattern is the one decoded; any later
      occurrence is never looked at. */
  lemma UsesFirstSync(row: seq<bool>, s: nat)
    requires IsFirstMatch(row, SYNC_BITS, s)
    requires |row| >= MIN_ROW_BITS
    ensures DecodeRow(row) == DecodeAt(row, s)
  {
    SyncBitsFacts();
    SearchFindsFirst(row, SYNC_BITS, s);
  }

  /** A length byte above 50 is a length abort, whatever follows it. */
  lemma OversizedLengthAborts(row: seq<bool>, s: nat)
    requires IsFirstMatch(row, SYNC_BITS, s)
    requires |row| >= MIN_ROW_BITS
    requires s + BODY_OFFSET <= |row|
    requires Len(row, s) > MAX_LEN
    ensures DecodeRow(row) == AbortLength
  {
    UsesFirstSync(row, s);
  }

  /** A frame buffer is accepted exactly when the CRC-16 of
      `frame[1 .. len - 1]` equals the big-endian pair `frame[len + 1 ..
      len + 2]`; neither the length byte nor `frame[len]` is covered, yet
      the record shows `frame[1 .. len]`. */
  lemma CheckFrameVerdict(frame: seq<bv8>, covered: seq<bv8>, shown: seq<bv8>, stored: seq<bool>)
    requires |frame| > 0 && 1 <= frame[0] as int <= MAX_LEN
    requires |frame| == frame[0] as int + 3
    requires covered == frame[1..frame[0] as int]
    requires shown == frame[1..frame[0] as int + 1]
    requires stored == BitsOfBytes(frame[frame[0] as int + 1..])
    ensures CheckFrame(frame).Decoded? <==> Crc16(covered, POLY, INIT) == stored
    ensures !CheckFrame(frame).Decoded? ==> CheckFrame(frame) == FailMic
    ensures CheckFrame(frame).Decoded? ==> CheckFrame(frame).record == Record(MODEL, Hex(shown), MIC)
  {
    var len := frame[0] as int;
    assert frame[len + 1..] == [frame[len + 1], frame[len + 2]];
    WordIsBits(frame[len + 1], frame[len + 2]);
  }

  /** The pair `hi`, `lo` read as a 16-bit register is `hi << 8 | lo`. */
  lemma WordValue(hi: bv8, lo: bv8)
    ensures Value(Word(hi, lo)) == hi as int * 256 + lo as int
  {
    ValueAppend(BitsOfByte(hi), BitsOfByte(lo));
    ValueOfByte(hi);
    ValueOfByte(lo);
    assert Pow2(8) == 256;
  }

  /** Comparing a 16-bit register with a byte pair bit by bit is the same as
      comparing it, read as a number, with `hi << 8 | lo`. */
  lemma RegisterMatchesWord(reg: seq<bool>, hi: bv8, lo: bv8)
    requires |reg| == 16
    ensures reg == Word(hi, lo) <==> Value(reg) == hi as int * 256 + lo as int
  {
    WordValue(hi, lo);
    ValueInjective(reg, Word(hi, lo));
  }

  /** The integrity check as the decoder performs it: the computed CRC,
      read as an unsigned 16-bit number, is compared with the integer
      `frame[len + 1] << 8 | frame[len + 2]`. The frame is accepted exactly
      when the two numbers are equal, and fails on integrity otherwise. */
  lemma CheckFrameComparesWords(frame: seq<bv8>)
    requires |frame| > 0 && 1 <= frame[0] as int <= MAX_LEN
    requires |frame| == frame[0] as int + 3
    ensures var len := frame[0] as int;
      var crc := Value(Crc16(frame[1..len], POLY, INIT));
      && crc < 0x1_0000
      && (CheckFrame(frame).Decoded? <==> crc == frame[len + 1] as int * 256 + frame[len + 2] as int)
      && (CheckFrame(frame).Decoded? || CheckFrame(frame) == FailMic)
  {
    var len := frame[0] as int;
    var reg := Crc16(frame[1..len], POLY, INIT);
    WordBound(reg);
    RegisterMatchesWord(reg, frame[len + 1], frame[len + 2]);
  }

  /** The parts of a frame buffer holding a length byte and `len + 2` bytes. */
  lemma FrameParts(frame: seq<bv8>, b: bv8, body: seq<bv8>, len: nat)
    requires 1 <= len && |body| == len + 2
    requires frame == [b] + body
    ensures frame[1..len] == body[0..len - 1]
    ensures frame[1..len + 1] == body[0..len]
    ensures frame[len + 1..] == body[len..len + 2]
  {
  }

  /** The frame buffer the decoder fills for the sync pattern at `s`. */
  function FrameOf(row: seq<bool>, s: nat): (frame: seq<bv8>)
    requires FrameFits(row, s)
    ensures |frame| == Len(row, s) + 3 && frame[0] as int == Len(row, s)
  {
    [ByteAt(row, s + LEN_OFFSET)] + ExtractBytes(row, s + BODY_OFFSET, Len(row, s) + 2)
  }

  lemma FrameCovered(row: seq<bool>, s: nat)
    requires FrameFits(row, s)
    ensures FrameOf(row, s)[1..Len(row, s)] == Covered(row, s)
  {
    var len := Len(row, s);
    FrameParts(FrameOf(row, s), ByteAt(row, s + LEN_OFFSET), ExtractBytes(row, s + BODY_OFFSET, len + 2), len);
    ExtractSlice(row, s + BODY_OFFSET, len + 2, 0, len - 1);
  }

  lemma FrameShown(row: seq<bool>, s: nat)
    requires FrameFits(row, s)
    ensures FrameOf(row, s)[1..Len(row, s) + 1] == Shown(row, s)
  {
    var len := Len(row, s);
    FrameParts(FrameOf(row, s), ByteAt(row, s + LEN_OFFSET), ExtractBytes(row, s + BODY_OFFSET, len + 2), len);
    ExtractSlice(row, s + BODY_OFFSET, len + 2, 0, len);
  }

  lemma FrameCrcBytes(row: seq<bool>, s: nat)
    requires FrameFits(row, s)
    ensures FrameOf(row, s)[Len(row, s) + 1..] == ExtractBytes(row, CrcPos(s, Len(row, s)), 2)
  {
    var len := Len(row, s);
    FrameParts(FrameOf(row, s), ByteAt(row, s + LEN_OFFSET), ExtractBytes(row, s + BODY_OFFSET, len + 2), len);
    ExtractSlice(row, s + BODY_OFFSET, len + 2, len, len + 2);
  }

  lemma FrameStored(row: seq<bool>, s: nat)
    requires FrameFits(row, s)
    ensures BitsOfBytes(FrameOf(row, s)[Len(row, s) + 1..]) == StoredCrc(row, s)
  {
    FrameCrcBytes(row, s);
    BitsOfExtract(row, CrcPos(s, Len(row, s)), 2);
  }

  lemma FramedDecodesFrame(row: seq<bool>, s: nat)
    requires Framed(row, s)
    ensures DecodeRow(row) == CheckFrame(FrameOf(row, s))
  {
    UsesFirstSync(row, s);
    FitsDecodesFrame(row, s);
  }

  lemma FitsDecodesFrame(row: seq<bool>, s: nat)
    requires FrameFits(row, s)
    ensures DecodeAt(row, s) == CheckFrame(FrameOf(row, s))
  {
  }

  /** After the sync pattern at `s`, the decoder aborts on length exactly
      when the frame does not fit: the length byte is not inside the row,
      its value is outside 1 to 50, or the frame it announces runs past the
      end of the row. A frame that fits is handed to the integrity check. */
  lemma LengthAbortIffMisfit(row: seq<bool>, s: nat)
    ensures DecodeAt(row, s) == AbortLength <==> !FrameFits(row, s)
    ensures FrameFits(row, s) ==> DecodeAt(row, s) == CheckFrame(FrameOf(row, s))
  {
    if FrameFits(row, s) {
      FitsDecodesFrame(row, s);
    }
  }

  /** The frame is accepted exactly when the CRC-16 of the `len - 1` bytes
      after the length byte equals the 16 bits stored after the uncovered
      byte; otherwise it is an integrity failure. An accepted frame's record
      holds the `len` bytes after the length byte, in hex. */
  lemma AcceptedIffInnerCrcMatches(row: seq<bool>, s: nat)
    requires Framed(row, s)
    ensures DecodeRow(row).Decoded? <==> Crc16(Covered(row, s), POLY, INIT) == StoredCrc(row, s)
    ensures !DecodeRow(row).Decoded? ==> DecodeRow(row) == FailMic
    ensures DecodeRow(row).Decoded? ==> DecodeRow(row).record == Record(MODEL, Hex(Shown(row, s)), MIC)
  {
    FramedDecodesFrame(row, s);
    FrameVerdict(row, s);
  }

  /** `CheckFrameVerdict` for the frame buffer filled from the row. */
  lemma FrameVerdict(row: seq<bool>, s: nat)
    requires FrameFits(row, s)
    ensures var o := CheckFrame(FrameOf(row, s));
      && (o.Decoded? <==> Crc16(Covered(row, s), POLY, INIT) == StoredCrc(row, s))
      && (!o.Decoded? ==> o == FailMic)
      && (o.Decoded? ==> o.record == Record(MODEL, Hex(Shown(row, s)), MIC))
  {
    FrameCovered(row, s);
    FrameShown(row, s);
    FrameStored(row, s);
    CheckFrameVerdict(FrameOf(row, s), Covered(row, s), Shown(row, s), StoredCrc(row, s));
  }

  /** The frame is checked (accepted or failed on integrity) exactly when the
      capture is one row whose first sync pattern is followed by a complete
      frame of length 1 to 50 inside that row: no byte the check reads lies
      outside the row, and a zero length never reaches the CRC. */
  lemma CheckedOnlyWhenFramed(buf: Bitbuffer)
    ensures (Decode(buf).Decoded? || Decode(buf) == FailMic) <==>
              && |buf.rows| == 1
              && Search(buf.rows[0], SYNC_BITS, 0) < |buf.rows[0]|
              && Framed(buf.rows[0], Search(buf.rows[0], SYNC_BITS, 0))
  {
    if |buf.rows| == 1 {
      var row := buf.rows[0];
      var s := Search(row, SYNC_BITS, 0);
      if s < |row| {
        assert IsFirstMatch(row, SYNC_BITS, s);
      }
    }
  }

  lemma AcceptedMeansCrcMatches(row: seq<bool>, s: nat)
    requires Framed(row, s)
    requires DecodeRow(row).Decoded?
    ensures Crc16(Covered(row, s), POLY, INIT) == StoredCrc(row, s)
  {
    AcceptedIffInnerCrcMatches(row, s);
  }

  lemma CrcMismatchFails(row: seq<bool>, s: nat)
    requires Framed(row, s)
    requires Crc16(Covered(row, s), POLY, INIT) != StoredCrc(row, s)
    ensures DecodeRow(row) == FailMic
  {
    AcceptedIffInnerCrcMatches(row, s);
  }

  lemma CrcMatchAccepts(row: seq<bool>, s: nat)
    requires Framed(row, s)
    requires Crc16(Covered(row, s), POLY, INIT) == StoredCrc(row, s)
    ensures DecodeRow(row) == Decoded(Record(MODEL, Hex(Shown(row, s)), MIC))
  {
    AcceptedIffInnerCrcMatches(row, s);
  }

  /** Rows whose checked parts agree get the same verdict. */
  lemma SameCheckSameVerdict(row: seq<bool>, row': seq<bool>, s: nat)
    requires Framed(row, s) && Framed(row', s)
    requires Covered(row', s) == Covered(row, s)
    requires StoredCrc(row', s) == StoredCrc(row, s)
    ensures DecodeRow(row').Decoded? <==> DecodeRow(row).Decoded?
  {
    if Crc16(Covered(row, s), POLY, INIT) == StoredCrc(row, s) {
      CrcMatchAccepts(row, s);
      CrcMatchAccepts(row', s);
    } else {
      CrcMismatchFails(row, s);
      CrcMismatchFails(row', s);
    }
  }

  lemma AcceptedShows(row: seq<bool>, s: nat)
    requires Framed(row, s)
    requires DecodeRow(row).Decoded?
    ensures DecodeRow(row).record.raw == Hex(Shown(row, s))
  {
    AcceptedIffInnerCrcMatches(row, s);
  }

  /** Rows that agree on `[0, e)` agree on every window inside it. */
  lemma WindowAlike(row: seq<bool>, row': seq<bool>, lo: nat, hi: nat, e: nat)
    requires lo <= hi <= e <= |row| && e <= |row'|
    requires row'[..e] == row[..e]
    ensures row'[lo..hi] == row[lo..hi]
  {
    forall i | lo <= i < hi
      ensures row'[i] == row[i]
    {
      assert row'[i] == row'[..e][i];
      assert row[i] == row[..e][i];
    }
  }

  /** Rows that agree up to some point after the length byte frame alike. */
  lemma SamePrefixFramesAlike(row: seq<bool>, row': seq<bool>, s: nat, e: nat)
    requires Framed(row, s)
    requires s + BODY_OFFSET <= e <= |row| && e <= |row'|
    requires row'[..e] == row[..e]
    requires |row'| >= MIN_ROW_BITS && FrameEnd(s, Len(row, s)) <= |row'|
    ensures Framed(row', s)
    ensures Len(row', s) == Len(row, s)
  {
    SyncBitsFacts();
    FirstMatchLocal(row, row', SYNC_BITS, s, e);
    WindowAlike(row, row', s + LEN_OFFSET, s + BODY_OFFSET, e);
  }

  /** Bits after the inner CRC, where the outer CRC sits, never affect the
      outcome, as long as the row keeps at least 112 bits. */
  lemma TrailerIgnored(row: seq<bool>, row': seq<bool>, s: nat)
    requires Framed(row, s)
    requires |row'| >= MIN_ROW_BITS
    requires FrameEnd(s, Len(row, s)) <= |row'|
    requires row'[..FrameEnd(s, Len(row, s))] == row[..FrameEnd(s, Len(row, s))]
    ensures DecodeRow(row') == DecodeRow(row)
  {
    var len := Len(row, s);
    var e := FrameEnd(s, len);
    var pos := s + BODY_OFFSET;
    SamePrefixFramesAlike(row, row', s, e);
    WindowAlike(row, row', s + LEN_OFFSET, e, e);
    FrameOfAlike(row, row', s);
    FramedDecodesFrame(row, s);
    FramedDecodesFrame(row', s);
  }

  /** The frame buffer depends only on the bits from the length byte to the
      end of the inner CRC. */
  lemma FrameOfAlike(row: seq<bool>, row': seq<bool>, s: nat)
    requires FrameFits(row, s) && FrameFits(row', s)
    requires Len(row', s) == Len(row, s)
    requires row'[s + LEN_OFFSET..FrameEnd(s, Len(row, s))] == row[s + LEN_OFFSET..FrameEnd(s, Len(row, s))]
    ensures FrameOf(row', s) == FrameOf(row, s)
  {
    var e := FrameEnd(s, Len(row, s));
    var pos := s + BODY_OFFSET;
    assert row'[pos..e] == row[pos..e] by {
      assert row[pos..e] == row[s + LEN_OFFSET..e][8..];
      assert row'[pos..e] == row'[s + LEN_OFFSET..e][8..];
    }
    ExtractLocal(row, row', pos, Len(row, s) + 2);
  }

  /** Replacing the eight bits at `u` leaves every window outside them alone. */
  lemma SpliceWindows(row: seq<bool>, u: nat, w: seq<bool>, c: nat)
    requires u + 8 <= |row| && |w| == 8
    requires u + 8 <= c && c + 16 <= |row|
    ensures var row' := row[..u] + w + row[u + 8..];
            && |row'| == |row|
            && row'[..u] == row[..u]
            && row'[u..u + 8] == w
            && row'[c..c + 16] == row[c..c + 16]
  {
  }

  lemma CoveredAlike(row: seq<bool>, row': seq<bool>, s: nat)
    requires FrameFits(row, s) && FrameFits(row', s)
    requires Len(row', s) == Len(row, s)
    requires row'[s + BODY_OFFSET..UncoveredPos(s, Len(row, s))] == row[s + BODY_OFFSET..UncoveredPos(s, Len(row, s))]
    ensures Covered(row', s) == Covered(row, s)
  {
    ExtractLocal(row, row', s + BODY_OFFSET, Len(row, s) - 1);
  }

  /** The bytes shown for a frame: the covered bytes, then the uncovered one. */
  lemma ShownSplits(row: seq<bool>, s: nat)
    requires FrameFits(row, s)
    ensures Shown(row, s) == Covered(row, s) + [ByteAt(row, UncoveredPos(s, Len(row, s)))]
  {
    var len := Len(row, s);
    ExtractSlice(row, s + BODY_OFFSET, len, 0, len - 1);
    var shown := Shown(row, s);
    assert shown == shown[0..len - 1] + [shown[len - 1]];
  }

  /** The byte between the covered bytes and the inner CRC is not checked:
      replacing it never changes whether the frame is accepted, and an
      accepted frame then reports the replacement in its hex. */
  lemma UncoveredByteNotChecked(row: seq<bool>, s: nat, v: bv8)
    requires Framed(row, s)
    ensures var u := UncoveredPos(s, Len(row, s));
            var row' := row[..u] + BitsOfByte(v) + row[u + 8..];
            && (DecodeRow(row').Decoded? <==> DecodeRow(row).Decoded?)
            && (DecodeRow(row').Decoded? ==> DecodeRow(row').record.raw == Hex(Covered(row, s) + [v]))
  {
    var len := Len(row, s);
    var u := UncoveredPos(s, len);
    var row' := row[..u] + BitsOfByte(v) + row[u + 8..];
    var pos := s + BODY_OFFSET;
    SpliceWindows(row, u, BitsOfByte(v), CrcPos(s, len));
    SamePrefixFramesAlike(row, row', s, u);
    WindowAlike(row, row', pos, u, u);
    CoveredAlike(row, row', s);
    SameCheckSameVerdict(row, row', s);
    if DecodeRow(row').Decoded? {
      AcceptedShows(row', s);
      ShownSplits(row', s);
      ByteRoundTrip(v);
    }
  }

  lemma CoveredBits(row: seq<bool>, s: nat)
    requires FrameFits(row, s)
    ensures BitsOfBytes(Covered(row, s)) == row[s + BODY_OFFSET..UncoveredPos(s, Len(row, s))]
  {
    var pos, n := s + BODY_OFFSET, Len(row, s) - 1;
    assert UncoveredPos(s, Len(row, s)) == pos + 8 * n;
    BitsOfExtract(row, pos, n);
  }

  lemma CrcOfBits(msg: seq<bv8>, bits: seq<bool>)
    requires BitsOfBytes(msg) == bits
    ensures Crc16(msg, POLY, INIT) == CrcBits(INIT, bits, POLY)
  {
    Crc16IsBitSerial(msg, POLY, INIT);
  }

  /** Flipping one covered bit changes the CRC of the covered bytes. */
  lemma CoveredFlipChangesCrc(row: seq<bool>, s: nat, q: nat)
    requires FrameFits(row, s)
    requires s + BODY_OFFSET <= q < UncoveredPos(s, Len(row, s))
    requires FrameFits(Flip(row, q), s) && Len(Flip(row, q), s) == Len(row, s)
    ensures Crc16(Covered(Flip(row, q), s), POLY, INIT) != Crc16(Covered(row, s), POLY, INIT)
  {
    var pos := s + BODY_OFFSET;
    var u := UncoveredPos(s, Len(row, s));
    var row' := Flip(row, q);
    var m, m' := Covered(row, s), Covered(row', s);
    var w := row[pos..u];
    FlipWindow(row, q, pos, u);
    CoveredBits(row, s);
    CoveredBits(row', s);
    assert BitsOfBytes(m') == Flip(w, q - pos);
    FlippedMessageCrc(m, m', w, q - pos);
  }

  /** Two messages whose bits differ in exactly one place have different
      checksums. */
  lemma FlippedMessageCrc(m: seq<bv8>, m': seq<bv8>, w: seq<bool>, k: nat)
    requires k < |w|
    requires BitsOfBytes(m) == w && BitsOfBytes(m') == Flip(w, k)
    ensures Crc16(m', POLY, INIT) != Crc16(m, POLY, INIT)
  {
    CrcOfBits(m, w);
    CrcOfBits(m', Flip(w, k));
    CrcParameters();
    SingleBitErrorDetected(INIT, w, k, POLY);
  }

  /** Flipping any one bit of the covered bytes or of the stored inner CRC
      of an accepted frame turns it into an integrity failure. */
  lemma SingleBitCorruptionDetected(row: seq<bool>, s: nat, q: nat)
    requires Framed(row, s)
    requires DecodeRow(row).Decoded?
    requires s + BODY_OFFSET <= q < UncoveredPos(s, Len(row, s))
          || CrcPos(s, Len(row, s)) <= q < CrcPos(s, Len(row, s)) + 16
    ensures DecodeRow(Flip(row, q)) == FailMic
  {
    var len := Len(row, s);
    var pos := s + BODY_OFFSET;
    var u := UncoveredPos(s, len);
    var c := CrcPos(s, len);
    var row' := Flip(row, q);
    FlipWindow(row, q, 0, pos);
    SamePrefixFramesAlike(row, row', s, pos);
    AcceptedMeansCrcMatches(row, s);
    FlipBreaksCrc(row, row', s, q);
    CrcMismatchFails(row', s);
  }

  /** The CRC check of a frame that passes it fails once any one covered or
      stored CRC bit is flipped. */
  lemma FlipBreaksCrc(row: seq<bool>, row': seq<bool>, s: nat, q: nat)
    requires FrameFits(row, s) && FrameFits(row', s)
    requires q < |row| && row' == Flip(row, q) && Len(row', s) == Len(row, s)
    requires Crc16(Covered(row, s), POLY, INIT) == StoredCrc(row, s)
    requires s + BODY_OFFSET <= q < UncoveredPos(s, Len(row, s))
          || CrcPos(s, Len(row, s)) <= q < CrcPos(s, Len(row, s)) + 16
    ensures Crc16(Covered(row', s), POLY, INIT) != StoredCrc(row', s)
  {
    var len := Len(row, s);
    var pos := s + BODY_OFFSET;
    var u := UncoveredPos(s, len);
    var c := CrcPos(s, len);
    FlipWindow(row, q, c, c + 16);
    FlipWindow(row, q, pos, u);
    if q < u {
      CoveredFlipChangesCrc(row, s, q);
    } else {
      CoveredAlike(row, row', s);
      assert row'[c..c + 16][q - c] != row[c..c + 16][q - c];
    }
  }

  /** The two inner CRC bytes of a payload, high byte first. */
  function CrcTrailer(payload: seq<bv8>): (t: seq<bv8>)
    ensures |t| == 2
  {
    CrcParameters();
    var c := Crc16(payload, POLY, INIT);
    [ByteOfBits(c[..8]), ByteOfBits(c[8..])]
  }

  lemma CrcTrailerBits(payload: seq<bv8>)
    ensures BitsOfBytes(CrcTrailer(payload)) == Crc16(payload, POLY, INIT)
  {
    CrcParameters();
    var c := Crc16(payload, POLY, INIT);
    BitsRoundTrip(c[..8]);
    BitsRoundTrip(c[8..]);
    var t := CrcTrailer(payload);
    WordIsBits(t[0], t[1]);
    assert t == [t[0], t[1]];
    assert c == c[..8] + c[8..];
  }

  /** The frame bytes of a transmission: the length byte `|payload| + 1`,
      the payload, one unchecked byte `extra` and the inner CRC of the
      payload. */
  function FrameBytes(payload: seq<bv8>, extra: bv8): (frame: seq<bv8>)
    requires |payload| < MAX_LEN
    ensures |frame| == |payload| + 4
  {
    [ByteOfCount(|payload| + 1)] + payload + [extra] + CrcTrailer(payload)
  }

  /** A transmission: `pre` noise, the sync pattern, the frame bytes, then
      `trailer` (the outer CRC or anything else). */
  function Transmission(pre: seq<bool>, payload: seq<bv8>, extra: bv8, trailer: seq<bool>): seq<bool>
    requires |payload| < MAX_LEN
  {
    pre + BitsOfBytes(SYNC + FrameBytes(payload, extra)) + trailer
  }

  lemma AssembledParts(f: seq<bv8>, b: bv8, payload: seq<bv8>, extra: bv8, t: seq<bv8>)
    requires |t| == 2
    requires f == [b] + payload + [extra] + t
    ensures f[0] == b
    ensures f[1..|payload| + 1] == payload
    ensures f[1..|payload| + 2] == payload + [extra]
    ensures f[|payload| + 2..|payload| + 4] == t
  {
  }

  /** Where a transmission's frame bytes sit in its row. */
  lemma TransmissionLayout(pre: seq<bool>, payload: seq<bv8>, extra: bv8, trailer: seq<bool>)
    requires |payload| < MAX_LEN
    ensures var row := Transmission(pre, payload, extra, trailer);
            && |row| == |pre| + LEN_OFFSET + 8 * (|payload| + 4) + |trailer|
            && MatchAt(row, SYNC_BITS, |pre|)
            && ExtractBytes(row, |pre| + LEN_OFFSET, |payload| + 4) == FrameBytes(payload, extra)
  {
    SyncedLayout(pre, FrameBytes(payload, extra), trailer);
  }

  /** Where any bytes sent after the sync pattern sit in the row. */
  lemma SyncedLayout(pre: seq<bool>, frame: seq<bv8>, trailer: seq<bool>)
    ensures var row := pre + BitsOfBytes(SYNC + frame) + trailer;
            && |row| == |pre| + LEN_OFFSET + 8 * |frame| + |trailer|
            && MatchAt(row, SYNC_BITS, |pre|)
            && ExtractBytes(row, |pre| + LEN_OFFSET, |frame|) == frame
  {
    SyncBitsFacts();
    BitsOfBytesAppend(SYNC, frame);
    Regroup(pre, SYNC_BITS, BitsOfBytes(frame), trailer);
    ExtractOfBits(pre + SYNC_BITS, frame, trailer);
  }


  /** A row whose bytes after a sync pattern at `s` are `frame`, a length
      byte `len` followed by `len + 2` bytes, frames exactly those bytes. */
  lemma LayoutFits(row: seq<bool>, s: nat, frame: seq<bv8>, len: nat)
    requires 1 <= len <= MAX_LEN && |frame| == len + 3 && frame[0] as int == len
    requires s + LEN_OFFSET + 8 * (len + 3) <= |row|
    requires ExtractBytes(row, s + LEN_OFFSET, len + 3) == frame
    ensures FrameFits(row, s) && Len(row, s) == len
  {
    assert ExtractBytes(row, s + LEN_OFFSET, len + 3)[0] == ByteAt(row, s + LEN_OFFSET);
  }

  lemma LayoutCovered(row: seq<bool>, s: nat, frame: seq<bv8>, len: nat)
    requires FrameFits(row, s) && Len(row, s) == len
    requires s + LEN_OFFSET + 8 * (len + 3) <= |row|
    requires ExtractBytes(row, s + LEN_OFFSET, len + 3) == frame
    ensures Covered(row, s) == frame[1..len]
  {
    ExtractSlice(row, s + LEN_OFFSET, len + 3, 1, len);
  }

  lemma LayoutShown(row: seq<bool>, s: nat, frame: seq<bv8>, len: nat)
    requires FrameFits(row, s) && Len(row, s) == len
    requires s + LEN_OFFSET + 8 * (len + 3) <= |row|
    requires ExtractBytes(row, s + LEN_OFFSET, len + 3) == frame
    ensures Shown(row, s) == frame[1..len + 1]
  {
    ExtractSlice(row, s + LEN_OFFSET, len + 3, 1, len + 1);
  }

  lemma LayoutStored(row: seq<bool>, s: nat, frame: seq<bv8>, len: nat)
    requires FrameFits(row, s) && Len(row, s) == len
    requires s + LEN_OFFSET + 8 * (len + 3) <= |row|
    requires ExtractBytes(row, s + LEN_OFFSET, len + 3) == frame
    ensures StoredCrc(row, s) == BitsOfBytes(frame[len + 1..len + 3])
  {
    ExtractSlice(row, s + LEN_OFFSET, len + 3, len + 1, len + 3);
    BitsOfExtract(row, CrcPos(s, len), 2);
  }

  /** Every well-formed transmission decodes to its payload and extra byte,
      at whatever bit offset its sync pattern starts and whatever trailer
      follows it. */
  lemma RoundTrip(pre: seq<bool>, payload: seq<bv8>, extra: bv8, trailer: seq<bool>)
    requires |payload| < MAX_LEN
    requires |Transmission(pre, payload, extra, trailer)| >= MIN_ROW_BITS
    requires forall p :: 0 <= p < |pre| ==> !MatchAt(Transmission(pre, payload, extra, trailer), SYNC_BITS, p)
    ensures DecodeRow(Transmission(pre, payload, extra, trailer))
         == Decoded(Record(MODEL, Hex(payload + [extra]), MIC))
  {
    var len := |payload| + 1;
    var row := Transmission(pre, payload, extra, trailer);
    var frame := FrameBytes(payload, extra);
    var s := |pre|;
    TransmissionLayout(pre, payload, extra, trailer);
    AssembledParts(frame, ByteOfCount(len), payload, extra, CrcTrailer(payload));
    LayoutFits(row, s, frame, len);
    assert Framed(row, s);
    LayoutCovered(row, s, frame, len);
    LayoutShown(row, s, frame, len);
    LayoutStored(row, s, frame, len);
    CrcTrailerBits(payload);
    CrcMatchAccepts(row, s);
  }

  /** A run of zero bits cannot hide a sync pattern, because the pattern
      starts with a one bit. */
  lemma ZeroPrefixHasNoSync(row: seq<bool>, k: nat)
    requires k <= |row|
    requires forall i :: 0 <= i < k ==> !row[i]
    ensures forall p :: 0 <= p < k ==> !MatchAt(row, SYNC_BITS, p)
  {
    SyncBitsFacts();
    forall p | 0 <= p < k
      ensures !MatchAt(row, SYNC_BITS, p)
    {
      if p + LEN_OFFSET <= |row| {
        assert row[p..p + LEN_OFFSET][0] == row[p];
      }
    }
  }

  /** The sync pattern is found at any bit offset, byte-aligned or not. */
  lemma UnalignedSyncFound(k: nat, payload: seq<bv8>, extra: bv8, trailer: seq<bool>)
    requires |payload| < MAX_LEN
    requires |Transmission(seq(k, _ => false), payload, extra, trailer)| >= MIN_ROW_BITS
    ensures DecodeRow(Transmission(seq(k, _ => false), payload, extra, trailer))
         == Decoded(Record(MODEL, Hex(payload + [extra]), MIC))
  {
    var pre: seq<bool> := seq(k, _ => false);
    var row := Transmission(pre, payload, extra, trailer);
    assert row[..k] == pre;
    ZeroPrefixHasNoSync(row, k);
    RoundTrip(pre, payload, extra, trailer);
  }

  /** A five-byte-length frame: four covered bytes, one unchecked byte, the
      inner CRC and a two-byte outer trailer decode to the five bytes after
      the length byte. */
  lemma FiveByteFrame(p0: bv8, p1: bv8, p2: bv8, p3: bv8, extra: bv8, o0: bv8, o1: bv8)
    ensures DecodeRow(Transmission([], [p0, p1, p2, p3], extra, BitsOfBytes([o0, o1])))
         == Decoded(Record(MODEL, Hex([p0, p1, p2, p3, extra]), MIC))
  {
    var payload := [p0, p1, p2, p3];
    assert payload + [extra] == [p0, p1, p2, p3, extra];
    RoundTrip([], payload, extra, BitsOfBytes([o0, o1]));
  }
}
